=== FILE: README.md ===
# Tamil voice translator: a Dafny model of its logic

The application listens to Tamil speech in the browser and translates the
recognised transcript into a chosen set of languages (English, Spanish,
German, Hindi, Japanese). It can read translations aloud. It also has a
tourist guide to attractions in Tamil Nadu, with per-card audio players.

This project models the logic under that interface as pure Dafny functions
over immutable records. Platform callbacks are events. Platform capabilities
are boolean parameters. The translation service is an oracle.

| file | module | models |
|---|---|---|
| `common.dfy` | `Common` | `Option`, the `trim()`-is-empty test, `join`, ASCII `toLowerCase`, and the array methods `map`, `flatMap`, `find` and `filter` |
| `languages.dfy` | `Languages` | `SUPPORTED_LANGUAGES` and the code-to-name lookup |
| `batch.dfy` | `Batch` | one request per target code, combined by `Promise.all` |
| `translation.dfy` | `Translation` | the `useTranslation` hook |
| `audio_translation.dfy` | `AudioTranslation` | the `useAudioTranslation` hook |
| `speech_recognition.dfy` | `SpeechRecognition` | the `useSpeechRecognition` hook |
| `home_page.dfy` | `HomePage` | the home page's debounced auto-translation, initial selection and "Clear All" |
| `language_selector.dfy` | `LanguageSelector` | toggle, select all, clear, and the summary of selected names |
| `catalog.dfy` | `Catalog` | `TAMIL_CITIES` and `ATTRACTION_CATEGORIES` (ASCII fields) |
| `attractions_grid.dfy` | `AttractionsGrid` | city and category filtering, and the header city lookup |
| `audio_player.dfy` | `AudioPlayer` | the per-card audio player's flag state machine |
| `results_view.dfy` | `ResultsView` | the translation results card |

Modelling choices:

- **The translation request** is an oracle `Request(text, source, target) -> Reply`. A reply is:
  - `Ok(translatedText)`;
  - `NotOk`, a non-ok HTTP status;
  - `Thrown(message)`: the network failed, the body did not parse, or `responseData` is missing.
- **Which rejection wins.** `Promise.all` rejects with the first failure to complete, and the code does not fix that order. The parameter `pick` chooses among the failing codes. `Batch.AnyFailureCanWin` shows every failing code can be chosen, so the model commits to none.
- **The debounce effect** is modelled twice. The operational version is a timer that each re-run of the effect cancels and re-arms. The declarative version is a rule: a change yields a call iff it arms a timer and the next change comes at least 1000 ms later. A timer whose deadline equals the next change's time counts as having fired first. `HomePage.OperationalMatchesDeclarative` proves the two agree.
- **JavaScript truthiness** is modelled where the code depends on it:
  - an empty error string shows no error card;
  - an empty selected-city id means "no city".
- **The selected-names summary** maps each code to its catalog entry's `name` and drops the misses with `filter(Boolean)`. Every catalog name is non-empty, so this is a `flatMap` where a catalog code gives its one name and any other code gives nothing (`LanguageSelector.NameOf`).
- **A response without `translatedText`** is not a failure in the code: the entry is created with an undefined text and the batch succeeds. A request fails only through `NotOk` or `Thrown`, and `Ok` carries whatever text the service returned.

## Model

| member | source | states |
|---|---|---|
| `Common.Join` | components/language-selector.tsx:39 | `join` of no pieces is "", of one piece is that piece, and otherwise starts with the first piece |
| `Common.IsBlank` | hooks/use-translation.ts:31 | the guard `!text.trim()`: every character is ECMAScript white space or a line terminator (`Common.TrimEmptyIffBlank` ties it to `trim()`) |
| `Common.TrimStart` | hooks/use-translation.ts:31 | leading white space dropped: the result is a suffix of the input, every dropped character is white space, and the result is empty exactly when the input is all white space, else starts with a visible character |
| `Common.TrimEnd` | hooks/use-translation.ts:31 | trailing white space dropped: the result is a prefix of the input, every dropped character is white space, and the result is empty exactly when the input is all white space, else ends with a visible character |
| `Common.Trim` | hooks/use-translation.ts:31 | `trim()` is empty iff the input is all white space, and otherwise starts and ends with a visible character |
| `Common.TrimSlice` | hooks/use-translation.ts:31 | `trim()` keeps one contiguous slice of the input and cuts only white space before and after it |
| `Common.TrimEmptyIffBlank` | hooks/use-translation.ts:31 | `trim()` gives the empty string iff every character is white space |
| `Common.JoinAppend` | components/translation-results.tsx:84 | joining a concatenation is joining each part and gluing with the separator, so pieces appear in list order |
| `Common.JoinLength` | components/translation-results.tsx:84 | a join's length is the pieces' lengths plus one separator between each pair of neighbours |
| `Common.Lower` | components/tourist-attractions/attractions-grid.tsx:26 | lower-casing keeps the length and maps each character on its own |
| `Common.Filter` | components/language-selector.tsx:21 | `filter` never lengthens the list, keeps only elements satisfying the predicate, and keeps every element that does |
| `Common.FilterAppend` | components/tourist-attractions/attractions-grid.tsx:26 | filtering distributes over concatenation, so it preserves order |
| `Common.FilterAll` | components/language-selector.tsx:21 | a predicate true on every element keeps the whole list |
| `Common.FilterNone` | components/tourist-attractions/attractions-grid.tsx:26 | a predicate false on every element keeps nothing |
| `Common.MapSeq` | components/language-selector.tsx:28 | `map` gives one result per element, each the function applied to the element at the same position |
| `Common.MapAppend` | components/language-selector.tsx:28 | mapping a concatenation is concatenating the mapped parts |
| `Common.FlatMapAppend` | components/tourist-attractions/attractions-grid.tsx:23 | `flatMap` of a concatenation is the concatenation of the two `flatMap`s |
| `Common.FlatMapCovers` | components/tourist-attractions/attractions-grid.tsx:23 | every element of every piece appears in the `flatMap` |
| `Common.FlatMapSources` | components/tourist-attractions/attractions-grid.tsx:23 | every element of the `flatMap` comes from the piece of some element |
| `Common.FlatMapShort` | components/language-selector.tsx:36-38 | when each element gives at most one piece, the result is no longer than the input |
| `Common.FlatMapSingletons` | components/language-selector.tsx:36-38 | when each element gives exactly one piece, the result lists those pieces position by position |
| `Common.FlatMapEmpty` | components/language-selector.tsx:38 | when every element gives nothing, the result is empty |
| `Common.FindFirst` | components/tourist-attractions/attractions-grid.tsx:22 | `find` gives nothing iff no element satisfies the predicate, and otherwise the first element that does |
| `Languages.FindIn` | hooks/use-translation.ts:48 | `find` returns nothing iff no entry has the code, and otherwise the first entry that has it |
| `Languages.FindInIsFindFirst` | hooks/use-translation.ts:48 | the catalog search is `find` with the code test as predicate |
| `Languages.Find` | hooks/use-translation.ts:48 | lookup in the catalog succeeds iff the code is a catalog code, and returns an entry with that code |
| `Languages.DisplayName` | hooks/use-translation.ts:51 | a catalog code shows its catalog name; any other code shows itself |
| `Languages.CatalogShape` | hooks/use-translation.ts:17-23 | five entries; codes en, es, de, hi, ja in that order, pairwise distinct; names English, Spanish, German, Hindi, Japanese |
| `Languages.DisplayNameOfEntry` | hooks/use-translation.ts:48-51 | the display name of each catalog entry's code is that entry's name |
| `Batch.Failing` | hooks/use-translation.ts:43-45 | the failing codes list is empty iff every request succeeds, and holds only requested codes whose request failed |
| `Batch.FailureMessage` | hooks/use-translation.ts:44 | a thrown error's message is kept as is; a non-ok status gives "Translation failed for " followed by the code |
| `Batch.NotOkMessageIdentifiesCode` | hooks/use-translation.ts:44 | two non-ok messages are equal iff their codes are, so the message names the failing language |
| `Batch.Collect` | hooks/use-translation.ts:57 | when every request succeeds, the results are one per code, in caller order |
| `Batch.Picked` | hooks/use-translation.ts:57 | the code whose rejection the batch reports is a requested code whose request failed |
| `Batch.FanOut` | hooks/use-translation.ts:38-57 | the batch resolves iff every request succeeds, with one result per code in caller order; otherwise it rejects with the message of some failing code |
| `Batch.AnyFailureCanWin` | hooks/use-translation.ts:57 | every failing code's message is a possible rejection of the batch |
| `Batch.FailingIndex` | hooks/use-translation.ts:43-45 | every code whose request fails appears in the failing list |
| `Translation.Begin` | hooks/use-translation.ts:31-34 | blank text changes nothing; otherwise the batch starts with the flag raised, the error cleared and the list kept |
| `Translation.Settle` | hooks/use-translation.ts:57-63 | settling lowers the flag; success replaces the list; failure keeps the list and stores the message |
| `Translation.TranslateText` | hooks/use-translation.ts:30-64 | blank text changes nothing. Otherwise the flag ends down. On success the error is cleared and there is one entry per target, in order, carrying the code, its display name and the service's text. On failure the list is kept and the error is the message of some failing code |
| `Translation.Clear` | hooks/use-translation.ts:66-69 | clearing empties the list and the error and leaves the in-flight flag alone |
| `Translation.EmptyTargets` | hooks/use-translation.ts:38-58 | non-blank text with no targets empties the list and clears the error |
| `Translation.NotOkNamesCode` | hooks/use-translation.ts:43-45 | a non-ok status for a code can surface as "Translation failed for <code>" |
| `Translation.SuccessIgnoresOrder` | hooks/use-translation.ts:57-58 | a successful batch's state does not depend on completion order |
| `AudioTranslation.TranslateAndSpeak` | hooks/use-audio-translation.ts:19-55 | the same all-or-nothing, order-preserving batch; every entry also carries the input text as original and is not playing |
| `AudioTranslation.MarkPlaying` | hooks/use-audio-translation.ts:63 | exactly the entry at the index is marked playing; no other field of any entry changes |
| `AudioTranslation.StopAll` | hooks/use-audio-translation.ts:71 | no entry is playing afterwards; no other field changes |
| `AudioTranslation.SpeakTranslation` | hooks/use-audio-translation.ts:57-83 | with synthesis, the playing flag moves to the given index and nothing else changes; without it, the list is unchanged and the "not supported" error is set |
| `AudioTranslation.SpeechEnded` | hooks/use-audio-translation.ts:70-72 | the end of an utterance leaves no entry playing and the error untouched |
| `AudioTranslation.SpeechFailed` | hooks/use-audio-translation.ts:74-77 | an utterance error leaves no entry playing and sets "Speech synthesis failed" |
| `AudioTranslation.AtMostOnePlaying` | hooks/use-audio-translation.ts:63 | after speaking, at most one entry is playing |
| `AudioTranslation.OutOfRangeIndexPlaysNothing` | hooks/use-audio-translation.ts:63 | an index outside the list leaves every entry not playing |
| `AudioTranslation.SpeakInTamil` | hooks/use-audio-translation.ts:85-115 | blank text does nothing. Otherwise the text is translated back with the pair `from|ta`. A non-ok status sets "Translation to Tamil failed" and a thrown error sets its message; nothing is spoken in either case. A success with synthesis speaks the returned text and changes no state. The list and the flag are never touched |
| `AudioTranslation.TamilStateChangesOnlyOnFailure` | hooks/use-audio-translation.ts:85-115 | the state changes only on a failed back-translation of non-blank text, and then only by setting the error |
| `AudioTranslation.Clear` | hooks/use-audio-translation.ts:117-121 | clearing empties the list and the error |
| `AudioTranslation.SpeakThenEndRestores` | hooks/use-audio-translation.ts:48-72 | translate, speak one entry, then the utterance ends: the list is the freshly translated one again |
| `SpeechRecognition.ScanResults` | hooks/use-speech-recognition.ts:66-77 | the loop over the result window accumulates exactly the in-order final text and the in-order interim text from `resultIndex` on |
| `SpeechRecognition.Gather` | hooks/use-speech-recognition.ts:70-77 | the reference for the loop: the in-order concatenation of the final (or interim) transcripts from `resultIndex` on |
| `SpeechRecognition.GatherPartitionsWindow` | hooks/use-speech-recognition.ts:70-77 | the lengths of the final and the interim texts add up to the summed length of the window's transcripts |
| `SpeechRecognition.OnResult` | hooks/use-speech-recognition.ts:66-83 | a result event appends the window's final text to the transcript (the old transcript stays a prefix) and replaces the interim text; listening and error are unchanged |
| `SpeechRecognition.OnStart` | hooks/use-speech-recognition.ts:57-60 | the start callback sets listening, clears the error, and leaves the texts alone |
| `SpeechRecognition.OnEnd` | hooks/use-speech-recognition.ts:62-64 | the end callback clears listening only |
| `SpeechRecognition.OnError` | hooks/use-speech-recognition.ts:85-88 | the error callback stores the platform's code and clears listening, leaving the texts untouched |
| `SpeechRecognition.StartListening` | hooks/use-speech-recognition.ts:93-100 | the platform is asked to start iff a recognizer exists and the hook is not listening; then texts and error are cleared but listening is not set; otherwise nothing changes |
| `SpeechRecognition.StopListening` | hooks/use-speech-recognition.ts:102-106 | the platform is asked to stop iff a recognizer exists and the hook is listening; no state changes |
| `SpeechRecognition.ClearTranscript` | hooks/use-speech-recognition.ts:108-111 | both texts become empty; listening and error are kept |
| `SpeechRecognition.StartThenStartedIsFresh` | hooks/use-speech-recognition.ts:57-60 | a granted start followed by the start callback gives a fresh listening session |
| `SpeechRecognition.ListeningChangesOnlyOnPlatformEvents` | hooks/use-speech-recognition.ts:57-64 | listening is switched on only by the start callback, and off only by the end or error callbacks |
| `SpeechRecognition.GatherIgnoresPrefix` | hooks/use-speech-recognition.ts:70 | results before `resultIndex` contribute nothing |
| `SpeechRecognition.NoFinalGathersNothing` | hooks/use-speech-recognition.ts:72-74 | a window without final results yields no final text |
| `SpeechRecognition.AllFinalGathersNoInterim` | hooks/use-speech-recognition.ts:75-77 | a window of final results only yields no interim text |
| `SpeechRecognition.ResultEventEdgeCases` | hooks/use-speech-recognition.ts:79-82 | an event with no final result leaves the transcript unchanged; an all-final event clears the interim text |
| `SpeechRecognition.TranscriptGrowsOutsideStartAndClear` | hooks/use-speech-recognition.ts:57-111 | every event other than a start request or a clear keeps the old transcript as a prefix |
| `HomePage.AdvanceTo` | app/page.tsx:21-23 | a pending timer whose deadline has passed fires exactly one call and is consumed; otherwise nothing happens |
| `HomePage.Arms` | app/page.tsx:20 | the effect's guard `transcript.trim() && selectedLanguages.length > 0` |
| `HomePage.ArmsIffVisibleText` | app/page.tsx:20 | a change arms a timer iff `trim()` leaves text, i.e. some character is not white space, and some language is selected |
| `HomePage.OnChange` | app/page.tsx:19-27 | a re-run of the effect cancels the pending timer and arms one for 1000 ms later with the current values iff the transcript is not blank and some language is selected |
| `HomePage.OneChange` | app/page.tsx:19-27 | one re-run of the effect issues the pending call iff its deadline is not after the change, and leaves pending exactly the timer the change arms |
| `HomePage.RunMatchesCalls` | app/page.tsx:19-27 | from any scheduler state, running the changes issues the calls the declarative rule predicts |
| `HomePage.OperationalMatchesDeclarative` | app/page.tsx:19-27 | from idle, the timer machinery issues exactly the calls of the declarative rule |
| `HomePage.CallsComeFromArmingChanges` | app/page.tsx:20-23 | every call carries the transcript and languages of a change that armed a timer, one delay after it |
| `HomePage.NoLanguagesNoCalls` | app/page.tsx:20 | with no language ever selected, no call is issued |
| `HomePage.BurstYieldsLastValues` | app/page.tsx:21-27 | changes spaced under 1000 ms apart yield at most one call, carrying the last values, iff the last change arms |
| `HomePage.DisarmingChangeCancels` | app/page.tsx:20-25 | a blank transcript or empty selection cancels the pending timer and arms none |
| `HomePage.InitialPage` | app/page.tsx:14-16 | the page starts with an empty transcript, the selection en, es, hi, and an empty translation state |
| `HomePage.HandleClearAll` | app/page.tsx:29-32 | "Clear All" empties the transcript, the translations and the error, and keeps the selection |
| `LanguageSelector.Toggle` | components/language-selector.tsx:19-25 | toggling flips the code's membership and keeps every other code's. An absent code is appended at the end. A present code has every occurrence removed, with the rest kept in order |
| `LanguageSelector.ToggleTwiceAbsent` | components/language-selector.tsx:20-22 | toggling an absent code twice restores the selection |
| `LanguageSelector.ToggleTwicePresent` | components/language-selector.tsx:20-22 | toggling a present code twice moves it, once, to the end |
| `LanguageSelector.RemovalKeepsOrder` | components/language-selector.tsx:21 | removal filters each part of any split of the selection separately |
| `LanguageSelector.SelectAll` | components/language-selector.tsx:27-29 | select all gives en, es, de, hi, ja, in catalog order, and exactly the catalog codes |
| `LanguageSelector.ClearAll` | components/language-selector.tsx:31-33 | clear all gives the empty selection |
| `LanguageSelector.Names` | components/language-selector.tsx:36-38 | there are never more names than selected codes |
| `LanguageSelector.NameOf` | components/language-selector.tsx:37-38 | a code contributes at most one name, and exactly one when it is a catalog code |
| `LanguageSelector.NamesAppend` | components/language-selector.tsx:36-38 | names of a concatenated selection are the concatenated names, in selection order |
| `LanguageSelector.UnknownOnlyHasNoNames` | components/language-selector.tsx:38 | a selection of unknown codes has no names |
| `LanguageSelector.NamesOfKnown` | components/language-selector.tsx:36-38 | for catalog codes, the names are their display names position by position |
| `LanguageSelector.SelectedLanguageNames` | components/language-selector.tsx:35-40 | the summary is empty when no selected code has a name |
| `LanguageSelector.SelectAllKnown` | components/language-selector.tsx:28 | every code of the full selection is a catalog code |
| `LanguageSelector.SelectAllNames` | components/language-selector.tsx:27-40 | the full selection's names are the catalog names in catalog order |
| `LanguageSelector.SelectAllSummary` | components/language-selector.tsx:35-40 | the full selection's summary is "English, Spanish, German, Hindi, Japanese" joined with ", " |
| `LanguageSelector.SummaryAfterToggleOn` | components/language-selector.tsx:19-40 | adding a catalog code to a selection with names extends the summary by ", " and that name |
| `Catalog.AllAttractions` | components/tourist-attractions/attractions-grid.tsx:23 | the flattened list holds every attraction of every city and nothing else |
| `Catalog.CatalogFlattened` | data/tourist-attractions.ts:27-208 | the whole catalog flattened is the five cities' attractions in order |
| `Catalog.CatalogCounts` | data/tourist-attractions.ts:27-208 | five cities with 3, 2, 2, 2, 2 attractions, eleven in all |
| `Catalog.CityIdsValue` | data/tourist-attractions.ts:29-176 | the city ids are chennai, madurai, coimbatore, trichy, kanyakumari |
| `Catalog.DistinctCityIdList` | data/tourist-attractions.ts:29-176 | those five ids are pairwise distinct |
| `Catalog.CityIdsDistinct` | data/tourist-attractions.ts:29-176 | city ids are pairwise distinct |
| `Catalog.AttractionIdsValue` | data/tourist-attractions.ts:36-195 | the eleven attraction ids in catalog order |
| `Catalog.DistinctAttractionIdList` | data/tourist-attractions.ts:36-195 | those eleven ids are pairwise distinct |
| `Catalog.AttractionIdsDistinct` | data/tourist-attractions.ts:36-195 | attraction ids are pairwise distinct across the whole catalog |
| `Catalog.AttractionCityMatches` | data/tourist-attractions.ts:41-188 | every attraction's city is the name of the city containing it |
| `Catalog.CategoryIdsValue` | data/tourist-attractions.ts:210-219 | the category ids are all, temple, beach, historical, palace, spiritual, memorial, monument |
| `Catalog.DistinctCategoryIdList` | data/tourist-attractions.ts:211-218 | those eight ids are pairwise distinct |
| `Catalog.CategoryIdsShape` | data/tourist-attractions.ts:210-219 | category ids are distinct and the first is "all" |
| `Catalog.LowerCategoryNames` | data/tourist-attractions.ts:43-202 | the catalog's category spellings lower-case to the category ids |
| `Catalog.FilterIds` | data/tourist-attractions.ts:212-218 | the category ids other than "all" are the seven filter ids |
| `Catalog.CategoriesAreKnown` | data/tourist-attractions.ts:43-202 | every attraction's lower-cased category is a category id other than "all" |
| `Catalog.CategoriesAreUsed` | data/tourist-attractions.ts:210-219 | every category id other than "all" is some attraction's lower-cased category |
| `AttractionsGrid.FindCity` | components/tourist-attractions/attractions-grid.tsx:22 | the lookup finds nothing iff no city has the id, and otherwise the first city that has it |
| `AttractionsGrid.CityScope` | components/tourist-attractions/attractions-grid.tsx:21-23 | no city selected gives every city's attractions; an id no city has gives nothing; a known id gives the attractions of a city with that id |
| `AttractionsGrid.FilteredAttractions` | components/tourist-attractions/attractions-grid.tsx:20-30 | category "all" keeps the city scope. Any other category keeps the order-preserving subsequence of the scope with that lower-cased category. The result is never longer than the scope and lies within it |
| `AttractionsGrid.SelectedCityData` | components/tourist-attractions/attractions-grid.tsx:32 | the header city is found iff a non-empty id is selected and some city has it, and it is that city |
| `AttractionsGrid.NoCityAllCategories` | components/tourist-attractions/attractions-grid.tsx:21-25 | no city (none or "") with category "all" gives every city's attractions in order |
| `AttractionsGrid.UnknownCityIsEmpty` | components/tourist-attractions/attractions-grid.tsx:22 | an id no city has gives an empty list, whatever the category |
| `AttractionsGrid.KnownCityScope` | components/tourist-attractions/attractions-grid.tsx:22 | a city id held by one city gives exactly that city's attractions |
| `AttractionsGrid.ScopeWithinCities` | components/tourist-attractions/attractions-grid.tsx:21-23 | every attraction in scope belongs to some city of the list |
| `AttractionsGrid.CatalogCityScope` | components/tourist-attractions/attractions-grid.tsx:22 | on the catalog, each city id gives exactly that city's attractions |
| `AttractionsGrid.UnusedCategoryIsEmpty` | components/tourist-attractions/attractions-grid.tsx:25-27 | a category no attraction has gives an empty list |
| `AttractionsGrid.UnknownCategoryOnCatalog` | components/tourist-attractions/attractions-grid.tsx:26 | on the catalog, an id that is not a category id gives an empty list |
| `AttractionsGrid.FilterByCity` | components/tourist-attractions/attractions-grid.tsx:23-27 | filtering the flattened catalog is filtering each city in turn, so city order is kept |
| `AudioPlayer.HandlePlay` | components/tourist-attractions/audio-player.tsx:34-115 | without synthesis nothing changes. Paused with an utterance, it resumes without a new utterance. Otherwise a new utterance is installed, and the playing flags, progress and ticker are left for its start callback |
| `AudioPlayer.HandlePause` | components/tourist-attractions/audio-player.tsx:117-121 | the player is left as it is; a pause is requested of the platform iff it is speaking and not paused |
| `AudioPlayer.HandleStop` | components/tourist-attractions/audio-player.tsx:123-130 | stop leaves the player not playing, not paused, at progress 0, with no utterance |
| `AudioPlayer.Step` | components/tourist-attractions/audio-player.tsx:64-111 | each utterance callback sets the flags as its handler does and keeps the fields that handler does not write; a live tick writes only the progress, the estimate capped at 100; the pause handler changes nothing |
| `AudioPlayer.StepKeepsValid` | components/tourist-attractions/audio-player.tsx:34-130 | every handler and callback keeps "not both playing and paused" and progress within 0..100 |
| `AudioPlayer.RunKeepsValid` | components/tourist-attractions/audio-player.tsx:34-130 | any sequence of handlers and callbacks keeps the player valid |
| `AudioPlayer.ReachableIsValid` | components/tourist-attractions/audio-player.tsx:19-23 | every state reachable from the initial player is valid |
| `AudioPlayer.PauseResumeRoundTrip` | components/tourist-attractions/audio-player.tsx:96-111 | pause then resume callbacks return a playing player to itself |
| `AudioPlayer.PauseGrantedThenPaused` | components/tourist-attractions/audio-player.tsx:96-121 | on a playing player the pause is requested, and the `onpause` that follows leaves it paused with the ticker stopped and the same utterance and progress |
| `AudioPlayer.StopThenPlayStartsAfresh` | components/tourist-attractions/audio-player.tsx:40-51 | play after stop always creates a new utterance |
| `ResultsView.SelectView` | components/translation-results.tsx:97-139 | the error card shows iff a non-empty error is set; else the skeleton iff translating; else the placeholder iff the list is empty; else the list |
| `ResultsView.HasError` | components/translation-results.tsx:97 | `if (error)` is false for null and for the empty message and true for any non-empty message |
| `ResultsView.ViewAfterBatch` | components/translation-results.tsx:97-139 | after a successful batch the card shows the results, or the placeholder when no language was requested |
| `ResultsView.ClearedView` | components/translation-results.tsx:106-137 | after clearing, the card shows the placeholder, or the skeleton while a batch is in flight |
| `ResultsView.Blocks` | components/translation-results.tsx:84 | one `"<language>:\n<text>\n"` block per entry, in list order |
| `ResultsView.DownloadContent` | components/translation-results.tsx:84 | the download of no entries is empty, and otherwise starts with the first entry's block |
| `ResultsView.DownloadAppend` | components/translation-results.tsx:84 | the download of two lists is the two downloads separated by "\n", so entries appear in list order |
| `ResultsView.DownloadLength` | components/translation-results.tsx:84 | the download's length is the blocks' lengths plus one newline between neighbours |
| `ResultsView.PluralSuffix` | components/translation-results.tsx:144 | the label has the suffix "s" iff the count is not 1 |
| `ResultsView.FlagIffCatalog` | components/translation-results.tsx:160-164 | a flag is shown for a code iff the code is a catalog code |
| `ResultsView.OnSpeakEvent` | components/translation-results.tsx:46-49 | the start callback makes the card's index the playing index; end and error clear it |
| `ResultsView.OneCardPlaysAtATime` | components/translation-results.tsx:174 | at most one card's play button is disabled, and none after an end or error |

## Left out

- HTTP requests, URL building, `encodeURIComponent` and JSON parsing are external I/O. The service is an oracle; see `Batch.Reply`.
- The speech recognition and speech synthesis platform objects are browser APIs. Their callbacks are events, and their presence is a boolean parameter. A `speechSynthesis.cancel()` can make a previous utterance's `onend` or `onerror` fire; the model leaves that to the caller, who applies those events explicitly.
- Non-`Error` throws are not modelled separately. The code's fallback messages "Translation failed" and "Tamil translation failed" are folded into `Thrown(message)`.
- Overlapping translation batches are not modelled. Two batches in flight at once can settle in either order, and the code does not say which should win. A call is one start followed by one settlement.
- `AudioPlayer.Step`: does not model the progress estimate (`Date.now`, the 100 ms interval, `text.length / 10` seconds, floating point). The estimate is an integer input; a live tick writes it when it is at most 100 and writes 100 otherwise (`Math.min`). The stale `progress` captured by `onresume` belongs to that arithmetic and is left out with it.
- `AudioPlayer.HandleStop`: the source does not clear the progress interval here, and the model keeps the `ticking` flag as it was; the interval stops when the cancelled utterance's `onend`/`onerror` fires.
- `handleRestart` (stop, then play after a 100 ms `setTimeout`) is timer sequencing whose intended outcome is not specified. The handler runs with the values from before the stop. `AudioPlayer.StopThenPlayStartsAfresh` states what a play after a completed stop does.
- The audio player's cleanup effect (a `speechSynthesis.cancel()` when an utterance was current) and its `onPlay`/`onStop` callbacks are effects outside this state. The effect depends on `currentUtterance`, so its cleanup runs with the previous value every time that value changes, not only on unmount: after `onend`, `onerror` and `handleStop`, and when `handlePlay` replaces a current utterance. In that last case (a second Play pressed before `onstart`, while the Play button is still shown) the cancel runs after `speak()` and cancels the utterance just queued. The `Play` step still sets `hasUtterance`; the caller must apply `UtteranceError` or `UtteranceEnd` for that cancelled utterance.
- `AudioTranslation.Clear`: states only the two setters. `clearAudioTranslations` then calls `speechSynthesis.cancel()` without checking that synthesis exists (hooks/use-audio-translation.ts:120), so without synthesis it throws after the setters; the model does not represent that exception.
- The speech hooks have no cleanup to model: the recognition effect returns none and the audio translation hook has no effect.
- Clipboard, `navigator.share`, and the Blob/object-URL download are I/O. Only the download's text is modelled.
- Layout-only components have no logic beyond guards: the audio visualizer, speech controls, navigation, city selector, attraction cards and the tourist guide page.
- The catalog's Tamil-script names, descriptions, images and coordinates affect no logic. Only the ASCII `id`, `name`, `city` and `category` fields are modelled.
- `Common.Lower`: lower-cases ASCII letters only, because every string it is applied to (the catalog's categories) is ASCII.
- `Common.IsBlank`: assumes `trim()` strips exactly the ECMAScript white space and line terminator characters (section 12.2 and 12.3 of ECMA-262) listed in the model.

=== FILE: attractions_grid.dfy ===
/**
 The selection logic of the attractions grid
 (components/tourist-attractions/attractions-grid.tsx): which attractions
 are listed for a selected city and category, and which city record heads
 the page. The functions take the city list as a parameter; the page uses
 `Catalog.TamilCities`.
 */
module AttractionsGrid {
  import opened Common
  import opened Catalog

  /** `cities.find(city => city.id === id)`. */
  function FindCity(cities: seq<City>, id: string): (r: Option<City>)
    ensures r.None? <==> forall i :: 0 <= i < |cities| ==> cities[i].id != id
    ensures r.Some? ==> exists i :: 0 <= i < |cities| && cities[i] == r.value && r.value.id == id
                                   && forall j :: 0 <= j < i ==> cities[j].id != id
  {
    FindFirst((c: City) => c.id == id, cities)
  }

  /** A selected city is JavaScript-truthy: present and not the empty string. */
  predicate HasCity(selectedCity: Option<string>) {
    selectedCity.Some? && selectedCity.value != ""
  }

  /** The attractions before category filtering. */
  function CityScope(cities: seq<City>, selectedCity: Option<string>): (r: seq<Attraction>)
    ensures !HasCity(selectedCity) ==> r == AllAttractions(cities)
    ensures HasCity(selectedCity) && (forall i :: 0 <= i < |cities| ==> cities[i].id != selectedCity.value) ==> r == []
    ensures HasCity(selectedCity) && (exists i :: 0 <= i < |cities| && cities[i].id == selectedCity.value) ==>
              exists i :: 0 <= i < |cities| && cities[i].id == selectedCity.value && r == cities[i].attractions
  {
    if HasCity(selectedCity) then
      match FindCity(cities, selectedCity.value)
      case Some(c) => c.attractions
      case None => []
    else AllAttractions(cities)
  }

  function InCategory(category: string): Attraction -> bool {
    (a: Attraction) => Lower(a.category) == category
  }

  /** `filteredAttractions`. */
  function FilteredAttractions(cities: seq<City>, selectedCity: Option<string>, category: string): (r: seq<Attraction>)
    ensures category == "all" ==> r == CityScope(cities, selectedCity)
    ensures category != "all" ==> r == Filter(InCategory(category), CityScope(cities, selectedCity))
    ensures |r| <= |CityScope(cities, selectedCity)|
    ensures forall i :: 0 <= i < |r| ==> r[i] in CityScope(cities, selectedCity)
    ensures category != "all" ==> forall i :: 0 <= i < |r| ==> Lower(r[i].category) == category
  {
    var scope := CityScope(cities, selectedCity);
    if category != "all" then Filter(InCategory(category), scope) else scope
  }

  /** `selectedCityData`: the header city record. */
  function SelectedCityData(cities: seq<City>, selectedCity: Option<string>): (r: Option<City>)
    ensures r.Some? <==> HasCity(selectedCity) && exists i :: 0 <= i < |cities| && cities[i].id == selectedCity.value
    ensures r.Some? ==> r.value in cities && r.value.id == selectedCity.value
  {
    if HasCity(selectedCity) then FindCity(cities, selectedCity.value) else None
  }

  /** No city (null or "") and category "all": every city's attractions in
      catalog order. */
  lemma NoCityAllCategories(cities: seq<City>, selectedCity: Option<string>)
    requires !HasCity(selectedCity)
    ensures FilteredAttractions(cities, selectedCity, "all") == AllAttractions(cities)
  {
  }

  /** A city id not in the list yields an empty list, whatever the category. */
  lemma UnknownCityIsEmpty(cities: seq<City>, id: string, category: string)
    requires id != "" && forall i :: 0 <= i < |cities| ==> cities[i].id != id
    ensures FilteredAttractions(cities, Some(id), category) == []
  {
  }

  /** A known city id scopes the list to exactly that city's attractions. */
  lemma KnownCityScope(cities: seq<City>, i: nat)
    requires i < |cities| && cities[i].id != ""
    requires forall j :: 0 <= j < |cities| && j != i ==> cities[j].id != cities[i].id
    ensures FilteredAttractions(cities, Some(cities[i].id), "all") == cities[i].attractions
  {
    var r := FindCity(cities, cities[i].id);
    var k :| 0 <= k < |cities| && cities[k] == r.value && r.value.id == cities[i].id
             && forall j :: 0 <= j < k ==> cities[j].id != cities[i].id;
    assert k == i;
  }

  /** Whatever the selection, the scope only holds attractions of the list. */
  lemma ScopeWithinCities(cities: seq<City>, selectedCity: Option<string>, a: Attraction)
    requires a in CityScope(cities, selectedCity)
    ensures exists i :: 0 <= i < |cities| && a in cities[i].attractions
  {
  }

  /** On the catalog, each city id selects exactly that city's attractions. */
  lemma CatalogCityScope(i: nat)
    requires i < |TamilCities|
    ensures FilteredAttractions(TamilCities, Some(TamilCities[i].id), "all") == TamilCities[i].attractions
  {
    CityIdsDistinct();
    CityIdsValue();
    KnownCityScope(TamilCities, i);
  }

  /** A category no attraction of the list has yields an empty list. */
  lemma UnusedCategoryIsEmpty(cities: seq<City>, selectedCity: Option<string>, category: string)
    requires category != "all"
    requires forall i, k :: 0 <= i < |cities| && 0 <= k < |cities[i].attractions| ==>
               Lower(cities[i].attractions[k].category) != category
    ensures FilteredAttractions(cities, selectedCity, category) == []
  {
    var scope := CityScope(cities, selectedCity);
    forall j | 0 <= j < |scope|
      ensures !InCategory(category)(scope[j])
    {
      ScopeWithinCities(cities, selectedCity, scope[j]);
      var i :| 0 <= i < |cities| && scope[j] in cities[i].attractions;
      var k :| 0 <= k < |cities[i].attractions| && cities[i].attractions[k] == scope[j];
    }
    FilterNone(InCategory(category), scope);
  }

  /** On the catalog, an id that is not a category id yields nothing. */
  lemma UnknownCategoryOnCatalog(selectedCity: Option<string>, category: string)
    requires category != "all" && category !in FilterIds()
    ensures FilteredAttractions(TamilCities, selectedCity, category) == []
  {
    CategoriesAreKnown();
    UnusedCategoryIsEmpty(TamilCities, selectedCity, category);
  }

  /** Filtering the whole catalog keeps city order: the result is the
      concatenation of each city's filtered attractions. */
  lemma {:induction false} FilterByCity(cities: seq<City>, category: string)
    requires category != "all"
    ensures FilteredAttractions(cities, None, category) == FilterEach(cities, category)
  {
    if |cities| > 0 {
      FilterAppend(InCategory(category), cities[0].attractions, AllAttractions(cities[1..]));
      FilterByCity(cities[1..], category);
    }
  }

  function FilterEach(cities: seq<City>, category: string): seq<Attraction> {
    if |cities| == 0 then []
    else Filter(InCategory(category), cities[0].attractions) + FilterEach(cities[1..], category)
  }
}

=== FILE: audio_player.dfy ===
/**
 The per-card audio player (components/tourist-attractions/audio-player.tsx)
 as a state machine over its flags. The platform synthesizer is outside the
 model: its utterance callbacks are events, and "speechSynthesis in window"
 is a parameter. The progress ticker is kept only as whether its interval
 is live and the clamp of what it writes; the wall-clock estimate it
 computes is an input.
 */
module AudioPlayer {

  datatype Player = Player(
    isPlaying: bool,
    isPaused: bool,
    progress: int,
    hasUtterance: bool,   // `currentUtterance !== null`
    ticking: bool)        // the progress interval is live

  const Initial: Player := Player(false, false, 0, false, false)

  /** The flags never claim playing and paused at once, and progress is a
      percentage. */
  predicate Valid(p: Player) {
    !(p.isPlaying && p.isPaused) && 0 <= p.progress <= 100
  }

  /** What `handlePlay` did: the new state and whether it created and
      queued a new utterance. */
  datatype PlayOutcome = PlayOutcome(player: Player, newUtterance: bool)

  /** `handlePlay()`: without synthesis nothing changes (an alert is shown);
      a paused player with an utterance resumes it; otherwise a new
      utterance becomes current and `isPlaying` waits for its `onstart`. */
  function HandlePlay(p: Player, synthesis: bool): (r: PlayOutcome)
    ensures !synthesis ==> r == PlayOutcome(p, false)
    ensures synthesis && p.isPaused && p.hasUtterance ==>
              !r.newUtterance && r.player == p.(isPaused := false, isPlaying := true)
    ensures synthesis && !(p.isPaused && p.hasUtterance) ==>
              r.newUtterance && r.player.hasUtterance
              && r.player.isPlaying == p.isPlaying && r.player.isPaused == p.isPaused
              && r.player.progress == p.progress && r.player.ticking == p.ticking
  {
    if !synthesis then PlayOutcome(p, false)
    else if p.isPaused && p.hasUtterance then PlayOutcome(p.(isPaused := false, isPlaying := true), false)
    else PlayOutcome(p.(hasUtterance := true), true)
  }

  /** What `handlePause` did: the player and whether it asked the platform
      to pause. */
  datatype PauseOutcome = PauseOutcome(player: Player, requested: bool)

  /** `handlePause()`: only asks the platform to pause, when it is speaking
      and not already paused; the player's flags change later, on `onpause`. */
  function HandlePause(p: Player, speaking: bool, platformPaused: bool): (r: PauseOutcome)
    ensures r.player == p
    ensures r.requested <==> speaking && !platformPaused
  {
    PauseOutcome(p, speaking && !platformPaused)
  }

  /** `handleStop()`. The source does not clear the progress interval here;
      the platform's cancel ends the utterance, whose handler does. */
  function HandleStop(p: Player): (r: Player)
    ensures !r.isPlaying && !r.isPaused && r.progress == 0 && !r.hasUtterance
    ensures r.ticking == p.ticking
  {
    p.(isPlaying := false, isPaused := false, progress := 0, hasUtterance := false)
  }

  /** The handlers, the utterance callbacks and the ticker firings. */
  datatype Event =
    | Play(synthesis: bool)
    | Pause(speaking: bool, platformPaused: bool)
    | Stop
    | UtteranceStart
    | UtteranceEnd
    | UtteranceError
    | UtterancePause
    | UtteranceResume
    | Tick(estimate: nat)   // `elapsed / estimatedDuration * 100`, as an integer

  function Min(a: int, b: int): int {
    if a <= b then a else b
  }

  function Step(p: Player, e: Event): (r: Player)
    ensures e.Pause? ==> r == p
    ensures e.UtteranceStart? ==> r.isPlaying && !r.isPaused && r.progress == 0 && r.ticking
                                  && r.hasUtterance == p.hasUtterance
    ensures e.UtteranceEnd? ==> !r.isPlaying && !r.isPaused && r.progress == 100 && !r.hasUtterance && !r.ticking
    ensures e.UtteranceError? ==> !r.isPlaying && !r.isPaused && r.progress == 0 && !r.hasUtterance && !r.ticking
    ensures e.UtterancePause? ==> r.isPaused && !r.isPlaying && !r.ticking
                                  && r.progress == p.progress && r.hasUtterance == p.hasUtterance
    ensures e.UtteranceResume? ==> r.isPlaying && !r.isPaused && r.ticking
                                   && r.progress == p.progress && r.hasUtterance == p.hasUtterance
    ensures e.Tick? && p.ticking ==> r.progress <= 100 && r.progress <= e.estimate
                                     && (e.estimate <= 100 ==> r.progress == e.estimate)
                                     && (e.estimate > 100 ==> r.progress == 100)
                                     && r.isPlaying == p.isPlaying && r.isPaused == p.isPaused
                                     && r.hasUtterance == p.hasUtterance && r.ticking
    ensures e.Tick? && !p.ticking ==> r == p
  {
    match e
    case Play(synthesis) => HandlePlay(p, synthesis).player
    case Pause(speaking, platformPaused) => HandlePause(p, speaking, platformPaused).player
    case Stop => HandleStop(p)
    case UtteranceStart => p.(isPlaying := true, isPaused := false, progress := 0, ticking := true)
    case UtteranceEnd => p.(isPlaying := false, isPaused := false, progress := 100, hasUtterance := false, ticking := false)
    case UtteranceError => p.(isPlaying := false, isPaused := false, progress := 0, hasUtterance := false, ticking := false)
    case UtterancePause => p.(isPaused := true, isPlaying := false, ticking := false)
    case UtteranceResume => p.(isPaused := false, isPlaying := true, ticking := true)
    case Tick(estimate) => if p.ticking then p.(progress := Min(estimate, 100)) else p
  }

  /** Every handler and callback keeps the player valid. */
  lemma StepKeepsValid(p: Player, e: Event)
    requires Valid(p)
    ensures Valid(Step(p, e))
  {
  }

  function Run(p: Player, events: seq<Event>): Player
    decreases |events|
  {
    if |events| == 0 then p else Run(Step(p, events[0]), events[1..])
  }

  /** Playing and paused are never both set, and progress stays within
      0..100, after any sequence of handlers and callbacks from the start. */
  lemma {:induction false} RunKeepsValid(p: Player, events: seq<Event>)
    requires Valid(p)
    ensures Valid(Run(p, events))
    decreases |events|
  {
    if |events| > 0 {
      StepKeepsValid(p, events[0]);
      RunKeepsValid(Step(p, events[0]), events[1..]);
    }
  }

  lemma ReachableIsValid(events: seq<Event>)
    ensures Valid(Run(Initial, events))
  {
    RunKeepsValid(Initial, events);
  }

  /** Pausing then resuming through the platform leaves the player playing
      with the same utterance and progress. */
  lemma PauseResumeRoundTrip(p: Player)
    requires p.isPlaying && p.ticking
    ensures Run(p, [UtterancePause, UtteranceResume]) == p.(isPaused := false)
  {
    assert [UtterancePause, UtteranceResume][1..] == [UtteranceResume];
  }

  /** A pause granted while playing, followed by the platform's `onpause`,
      leaves the player paused and its ticker stopped, with the same
      utterance and progress. */
  lemma PauseGrantedThenPaused(p: Player)
    requires p.isPlaying && p.ticking
    ensures HandlePause(p, true, false).requested
    ensures var q := Run(p, [Pause(true, false), UtterancePause]);
            q.isPaused && !q.isPlaying && !q.ticking && q.progress == p.progress && q.hasUtterance == p.hasUtterance
  {
    assert [Pause(true, false), UtterancePause][1..] == [UtterancePause];
  }

  /** Stop while paused, then play: a new utterance is created rather than
      the old one resumed. */
  lemma StopThenPlayStartsAfresh(p: Player)
    ensures HandlePlay(HandleStop(p), true).newUtterance
  {
  }
}

=== FILE: audio_translation.dfy ===
/**
 The `useAudioTranslation` hook (hooks/use-audio-translation.ts): the same
 all-or-nothing batch as `useTranslation`, with per-entry playing flags, plus
 speaking an entry, speaking a text back in Tamil and clearing. Whether the
 browser offers speech synthesis is a parameter; the utterance callbacks are
 separate transitions.
 */
module AudioTranslation {
  import opened Common
  import opened Batch
  import Languages

  datatype AudioTranslation = AudioTranslation(
    originalText: string,
    translatedText: string,
    language: string,
    languageCode: string,
    isPlaying: bool)

  datatype State = State(audioTranslations: seq<AudioTranslation>, isTranslating: bool, error: Option<string>)

  const SynthesisFailed: string := "Speech synthesis failed"
  const SynthesisUnsupported: string := "Speech synthesis not supported in this browser"
  const TamilFailed: string := "Translation to Tamil failed"

  /** The entry one successful request for `text` produces. */
  function EntryFor(text: string): (string, string) -> AudioTranslation {
    (code: string, translated: string) =>
      AudioTranslation(text, translated, Languages.DisplayName(code), code, false)
  }

  /** `translateAndSpeak(text, targetLanguages)` from start to settlement
      (nothing is spoken by it, despite the name). */
  function TranslateAndSpeak(s: State, text: string, targets: seq<string>, oracle: Oracle, pick: nat): (r: State)
    ensures IsBlank(text) ==> r == s
    ensures !IsBlank(text) ==> !r.isTranslating
    ensures !IsBlank(text) && AllOk(targets, RepliesFor(oracle, text)) ==>
              && r.error == None
              && |r.audioTranslations| == |targets|
              && forall i :: 0 <= i < |targets| ==>
                   && r.audioTranslations[i].originalText == text
                   && r.audioTranslations[i].translatedText == oracle(Request(text, SourceLanguage, targets[i])).text
                   && r.audioTranslations[i].language == Languages.DisplayName(targets[i])
                   && r.audioTranslations[i].languageCode == targets[i]
                   && !r.audioTranslations[i].isPlaying
    ensures !IsBlank(text) && !AllOk(targets, RepliesFor(oracle, text)) ==>
              && r.audioTranslations == s.audioTranslations
              && exists i :: 0 <= i < |targets| && !oracle(Request(text, SourceLanguage, targets[i])).Ok?
                             && r.error == Some(FailureMessage(targets[i], oracle(Request(text, SourceLanguage, targets[i]))))
  {
    if IsBlank(text) then s
    else
      match FanOut(targets, RepliesFor(oracle, text), EntryFor(text), pick)
      case Resolved(values) => State(values, false, None)
      case Rejected(m) => State(s.audioTranslations, false, Some(m))
  }

  /** Marks entry `index` (and only it) as playing; other fields untouched. */
  function MarkPlaying(list: seq<AudioTranslation>, index: int): (r: seq<AudioTranslation>)
    ensures |r| == |list|
    ensures forall i :: 0 <= i < |list| ==> (r[i].isPlaying <==> i == index)
    ensures forall i :: 0 <= i < |list| ==> r[i].(isPlaying := list[i].isPlaying) == list[i]
  {
    seq(|list|, i requires 0 <= i < |list| => list[i].(isPlaying := i == index))
  }

  /** Marks every entry as not playing; other fields untouched. */
  function StopAll(list: seq<AudioTranslation>): (r: seq<AudioTranslation>)
    ensures |r| == |list|
    ensures forall i :: 0 <= i < |list| ==> !r[i].isPlaying
    ensures forall i :: 0 <= i < |list| ==> r[i].(isPlaying := list[i].isPlaying) == list[i]
  {
    seq(|list|, i requires 0 <= i < |list| => list[i].(isPlaying := false))
  }

  /** `speakTranslation(text, code, index)`: with synthesis, the playing flag
      moves to entry `index`; without, only the error is set. */
  function SpeakTranslation(s: State, index: int, synthesis: bool): (r: State)
    ensures synthesis ==> |r.audioTranslations| == |s.audioTranslations| && r.error == s.error
    ensures synthesis ==> forall i :: 0 <= i < |s.audioTranslations| ==>
              (r.audioTranslations[i].isPlaying <==> i == index)
              && r.audioTranslations[i].(isPlaying := s.audioTranslations[i].isPlaying) == s.audioTranslations[i]
    ensures !synthesis ==> r.audioTranslations == s.audioTranslations && r.error == Some(SynthesisUnsupported)
    ensures r.isTranslating == s.isTranslating
  {
    if synthesis then s.(audioTranslations := MarkPlaying(s.audioTranslations, index))
    else s.(error := Some(SynthesisUnsupported))
  }

  /** The utterance's `onend`. */
  function SpeechEnded(s: State): (r: State)
    ensures |r.audioTranslations| == |s.audioTranslations|
    ensures forall i :: 0 <= i < |r.audioTranslations| ==> !r.audioTranslations[i].isPlaying
    ensures forall i :: 0 <= i < |s.audioTranslations| ==>
              r.audioTranslations[i] == s.audioTranslations[i].(isPlaying := false)
    ensures r.error == s.error && r.isTranslating == s.isTranslating
  {
    s.(audioTranslations := StopAll(s.audioTranslations))
  }

  /** The utterance's `onerror`. */
  function SpeechFailed(s: State): (r: State)
    ensures |r.audioTranslations| == |s.audioTranslations|
    ensures forall i :: 0 <= i < |r.audioTranslations| ==> !r.audioTranslations[i].isPlaying
    ensures forall i :: 0 <= i < |s.audioTranslations| ==>
              r.audioTranslations[i] == s.audioTranslations[i].(isPlaying := false)
    ensures r.error == Some(SynthesisFailed) && r.isTranslating == s.isTranslating
  {
    s.(audioTranslations := StopAll(s.audioTranslations), error := Some(SynthesisFailed))
  }

  /** At most one entry is marked playing after any `speakTranslation`. */
  lemma AtMostOnePlaying(s: State, index: int, i: int, j: int)
    requires 0 <= i < |s.audioTranslations| && 0 <= j < |s.audioTranslations|
    requires SpeakTranslation(s, index, true).audioTranslations[i].isPlaying
    requires SpeakTranslation(s, index, true).audioTranslations[j].isPlaying
    ensures i == j
  {
  }

  /** An index outside the list leaves every entry not playing. */
  lemma OutOfRangeIndexPlaysNothing(s: State, index: int)
    requires index < 0 || index >= |s.audioTranslations|
    ensures forall i :: 0 <= i < |s.audioTranslations| ==> !SpeakTranslation(s, index, true).audioTranslations[i].isPlaying
  {
  }

  /** The outcome of `speakInTamil`: the new state and the text handed to
      the synthesizer, if any. */
  datatype TamilOutcome = TamilOutcome(state: State, spoken: Option<string>)

  /** `speakInTamil(translatedText, fromLanguage)`: translate back with the
      pair `fromLanguage|ta` and speak the result when synthesis exists. The
      error slot is only ever set, never cleared, here. */
  function SpeakInTamil(s: State, text: string, fromLanguage: string, oracle: Oracle, synthesis: bool): (r: TamilOutcome)
    ensures IsBlank(text) ==> r == TamilOutcome(s, None)
    ensures !IsBlank(text) ==> r.state.audioTranslations == s.audioTranslations
                               && r.state.isTranslating == s.isTranslating
    ensures r.spoken.Some? <==> !IsBlank(text) && synthesis && oracle(Request(text, fromLanguage, "ta")).Ok?
    ensures r.spoken.Some? ==> r.spoken.value == oracle(Request(text, fromLanguage, "ta")).text && r.state == s
    ensures !IsBlank(text) && oracle(Request(text, fromLanguage, "ta")).Ok? ==> r.state == s
    ensures !IsBlank(text) && oracle(Request(text, fromLanguage, "ta")) == NotOk ==> r.state.error == Some(TamilFailed)
    ensures !IsBlank(text) && oracle(Request(text, fromLanguage, "ta")).Thrown? ==>
              r.state.error == Some(oracle(Request(text, fromLanguage, "ta")).message)
  {
    if IsBlank(text) then TamilOutcome(s, None)
    else
      match oracle(Request(text, fromLanguage, "ta"))
      case NotOk => TamilOutcome(s.(error := Some(TamilFailed)), None)
      case Thrown(m) => TamilOutcome(s.(error := Some(m)), None)
      case Ok(tamil) => TamilOutcome(s, if synthesis then Some(tamil) else None)
  }

  /** `speakInTamil` changes the hook's state only through a failed
      back-translation, and then only its error slot. */
  lemma TamilStateChangesOnlyOnFailure(s: State, text: string, fromLanguage: string, oracle: Oracle, synthesis: bool)
    ensures var r := SpeakInTamil(s, text, fromLanguage, oracle, synthesis);
            r.state != s ==> !IsBlank(text) && !oracle(Request(text, fromLanguage, "ta")).Ok?
                             && r.state == s.(error := r.state.error) && r.state.error.Some?
  {
  }

  /** `clearAudioTranslations()`. */
  function Clear(s: State): (r: State)
    ensures r.audioTranslations == [] && r.error == None && r.isTranslating == s.isTranslating
  {
    s.(audioTranslations := [], error := None)
  }

  /** A freshly translated batch has nothing playing; speaking entry `k` then
      plays exactly that entry and keeps its text, and the end of the
      utterance returns the list to the freshly translated one. */
  lemma SpeakThenEndRestores(s: State, text: string, targets: seq<string>, oracle: Oracle, pick: nat, k: int)
    requires !IsBlank(text) && AllOk(targets, RepliesFor(oracle, text))
    ensures SpeechEnded(SpeakTranslation(TranslateAndSpeak(s, text, targets, oracle, pick), k, true)).audioTranslations
            == TranslateAndSpeak(s, text, targets, oracle, pick).audioTranslations
  {
    var t := TranslateAndSpeak(s, text, targets, oracle, pick);
    var e := SpeechEnded(SpeakTranslation(t, k, true));
    assert forall i :: 0 <= i < |t.audioTranslations| ==> e.audioTranslations[i] == t.audioTranslations[i];
  }
}

=== FILE: batch.dfy ===
/**
 The translation HTTP call as an abstract oracle, and the fan-out both
 translation hooks build from it: one request per target code, combined by
 `Promise.all`. The batch resolves iff every request resolves, with the
 results in the order of the codes; otherwise it rejects with the message of
 one failing request. Which failing request wins depends on completion order,
 which the code does not fix, so the model takes it as a parameter `pick`.
 */
module Batch {
  import opened Common

  /** One `fetch` to the translation service: the text and the
      `source|target` language pair of the query string. */
  datatype Request = Request(text: string, source: string, target: string)

  /** What a request yields: the response's `responseData.translatedText`,
      a non-ok HTTP status, or an exception (network failure, unparsable
      body, missing `responseData`) carrying its message. */
  datatype Reply = Ok(text: string) | NotOk | Thrown(message: string)

  type Oracle = Request -> Reply

  /** The source language of every forward translation: Tamil. */
  const SourceLanguage: string := "ta"

  /** The oracle as seen by a forward batch: `ta|code` for the given text. */
  function RepliesFor(oracle: Oracle, text: string): string -> Reply {
    code => oracle(Request(text, SourceLanguage, code))
  }

  datatype Outcome<R> = Resolved(values: seq<R>) | Rejected(message: string)

  /** The error message a failed request of the forward translation leaves in
      the hook's error slot: the message of the thrown `Error`. */
  function FailureMessage(code: string, reply: Reply): (r: string)
    ensures reply.Thrown? ==> r == reply.message
    ensures !reply.Thrown? ==> "Translation failed for " <= r && r[|"Translation failed for "|..] == code
  {
    match reply
    case Thrown(m) => m
    case _ => "Translation failed for " + code
  }

  /** A non-ok status names its code: two codes' messages agree only when
      the codes do. */
  lemma NotOkMessageIdentifiesCode(a: string, b: string)
    ensures FailureMessage(a, NotOk) == FailureMessage(b, NotOk) <==> a == b
  {
  }

  predicate AllOk(codes: seq<string>, replyOf: string -> Reply) {
    forall i :: 0 <= i < |codes| ==> replyOf(codes[i]).Ok?
  }

  /** The target codes whose request fails, in the caller's order. */
  function Failing(codes: seq<string>, replyOf: string -> Reply): (r: seq<string>)
    ensures |r| == 0 <==> AllOk(codes, replyOf)
    ensures forall i :: 0 <= i < |r| ==> r[i] in codes && !replyOf(r[i]).Ok?
  {
    if |codes| == 0 then []
    else if replyOf(codes[0]).Ok? then Failing(codes[1..], replyOf)
    else [codes[0]] + Failing(codes[1..], replyOf)
  }

  /** `await Promise.all(codes.map(...))` when every request succeeded. */
  function Collect<R>(codes: seq<string>, replyOf: string -> Reply, mk: (string, string) -> R): (r: seq<R>)
    requires AllOk(codes, replyOf)
    ensures |r| == |codes|
    ensures forall i :: 0 <= i < |codes| ==> r[i] == mk(codes[i], replyOf(codes[i]).text)
  {
    if |codes| == 0 then []
    else [mk(codes[0], replyOf(codes[0]).text)] + Collect(codes[1..], replyOf, mk)
  }

  /** The failing code whose rejection `Promise.all` reports, as chosen by
      `pick` among the failing codes. */
  function Picked(codes: seq<string>, replyOf: string -> Reply, pick: nat): (f: string)
    requires !AllOk(codes, replyOf)
    ensures f in codes && !replyOf(f).Ok?
  {
    var failing := Failing(codes, replyOf);
    failing[pick % |failing|]
  }

  /** The batch: resolves with one `mk(code, text)` per code in caller order, or
      rejects with the message of the failing code chosen by `pick`. */
  function FanOut<R>(codes: seq<string>, replyOf: string -> Reply, mk: (string, string) -> R, pick: nat): (r: Outcome<R>)
    ensures r.Resolved? <==> AllOk(codes, replyOf)
    ensures r.Resolved? ==> |r.values| == |codes|
                            && forall i :: 0 <= i < |codes| ==> r.values[i] == mk(codes[i], replyOf(codes[i]).text)
    ensures r.Rejected? ==> exists i :: 0 <= i < |codes| && !replyOf(codes[i]).Ok?
                                       && r.message == FailureMessage(codes[i], replyOf(codes[i]))
  {
    if AllOk(codes, replyOf) then Resolved(Collect(codes, replyOf, mk))
    else
      var f := Picked(codes, replyOf, pick);
      Rejected(FailureMessage(f, replyOf(f)))
  }

  /** Every failing code can be the one the rejection reports: `pick` ranges
      over all completion orders, so the model commits to none of them. */
  lemma {:induction false} AnyFailureCanWin<R>(codes: seq<string>, replyOf: string -> Reply, mk: (string, string) -> R, k: nat)
    requires k < |codes| && !replyOf(codes[k]).Ok?
    ensures exists pick: nat :: FanOut(codes, replyOf, mk, pick) == Rejected(FailureMessage(codes[k], replyOf(codes[k])))
  {
    var j := FailingIndex(codes, replyOf, k);
    assert !AllOk(codes, replyOf);
    PickedAt(codes, replyOf, j);
    RejectsWithPicked(codes, replyOf, mk, j);
  }

  lemma RejectsWithPicked<R>(codes: seq<string>, replyOf: string -> Reply, mk: (string, string) -> R, pick: nat)
    requires !AllOk(codes, replyOf)
    ensures FanOut(codes, replyOf, mk, pick)
            == Rejected(FailureMessage(Picked(codes, replyOf, pick), replyOf(Picked(codes, replyOf, pick))))
  {
  }

  /** A pick below the number of failing codes selects that failing code. */
  lemma PickedAt(codes: seq<string>, replyOf: string -> Reply, j: nat)
    requires j < |Failing(codes, replyOf)|
    ensures !AllOk(codes, replyOf) && Picked(codes, replyOf, j) == Failing(codes, replyOf)[j]
  {
    SmallModulus(j, |Failing(codes, replyOf)|);
  }

  lemma SmallModulus(j: nat, n: nat)
    requires j < n
    ensures j % n == j
  {
  }

  /** A failing code appears in the list of failing codes. */
  lemma {:induction false} FailingIndex(codes: seq<string>, replyOf: string -> Reply, k: nat) returns (j: nat)
    requires k < |codes| && !replyOf(codes[k]).Ok?
    ensures j < |Failing(codes, replyOf)| && Failing(codes, replyOf)[j] == codes[k]
  {
    if k == 0 {
      j := 0;
    } else if replyOf(codes[0]).Ok? {
      j := FailingIndex(codes[1..], replyOf, k - 1);
    } else {
      var j' := FailingIndex(codes[1..], replyOf, k - 1);
      j := j' + 1;
    }
  }
}

=== FILE: catalog.dfy ===
/**
 The static tourist-attraction catalog (data/tourist-attractions.ts),
 restricted to its ASCII fields: ids, English names, the owning city's name
 and the category. Tamil text, descriptions, images and coordinates are not
 part of this model.
 */
module Catalog {
  import opened Common

  datatype Attraction = Attraction(id: string, name: string, city: string, category: string)

  datatype City = City(id: string, name: string, attractions: seq<Attraction>)

  datatype Category = Category(id: string, name: string)

  const TamilCities: seq<City> := [
    City("chennai", "Chennai", [
      Attraction("marina-beach", "Marina Beach", "Chennai", "Beach"),
      Attraction("kapaleeshwarar-temple", "Kapaleeshwarar Temple", "Chennai", "Temple"),
      Attraction("fort-st-george", "Fort St. George", "Chennai", "Historical")
    ]),
    City("madurai", "Madurai", [
      Attraction("meenakshi-temple", "Meenakshi Amman Temple", "Madurai", "Temple"),
      Attraction("thirumalai-nayakkar-palace", "Thirumalai Nayakkar Palace", "Madurai", "Palace")
    ]),
    City("coimbatore", "Coimbatore", [
      Attraction("marudamalai-temple", "Marudamalai Temple", "Coimbatore", "Temple"),
      Attraction("isha-yoga-center", "Isha Yoga Center", "Coimbatore", "Spiritual")
    ]),
    City("trichy", "Tiruchirappalli", [
      Attraction("rock-fort-temple", "Rock Fort Temple", "Tiruchirappalli", "Temple"),
      Attraction("srirangam-temple", "Srirangam Temple", "Tiruchirappalli", "Temple")
    ]),
    City("kanyakumari", "Kanyakumari", [
      Attraction("vivekananda-rock", "Vivekananda Rock Memorial", "Kanyakumari", "Memorial"),
      Attraction("thiruvalluvar-statue", "Thiruvalluvar Statue", "Kanyakumari", "Monument")
    ])
  ]

  const AttractionCategories: seq<Category> := [
    Category("all", "All Attractions"),
    Category("temple", "Temples"),
    Category("beach", "Beaches"),
    Category("historical", "Historical"),
    Category("palace", "Palaces"),
    Category("spiritual", "Spiritual"),
    Category("memorial", "Memorials"),
    Category("monument", "Monuments")
  ]

  /** `cities.flatMap(city => city.attractions)`. */
  function AllAttractions(cities: seq<City>): (r: seq<Attraction>)
    ensures forall i :: 0 <= i < |cities| ==> forall a :: a in cities[i].attractions ==> a in r
    ensures forall a :: a in r ==> exists i :: 0 <= i < |cities| && a in cities[i].attractions
  {
    var r := FlatMap(Attractions, cities);
    forall i, a | 0 <= i < |cities| && a in cities[i].attractions
      ensures a in r
    {
      FlatMapCovers(Attractions, cities, i, a);
    }
    forall a | a in r
      ensures exists i :: 0 <= i < |cities| && a in cities[i].attractions
    {
      var i := FlatMapSources(Attractions, cities, a);
    }
    r
  }

  function Attractions(c: City): seq<Attraction> {
    c.attractions
  }

  function CityIds(cities: seq<City>): seq<string> {
    MapSeq((c: City) => c.id, cities)
  }

  function AttractionIds(attractions: seq<Attraction>): seq<string> {
    MapSeq((a: Attraction) => a.id, attractions)
  }

  function CategoryIds(categories: seq<Category>): seq<string> {
    MapSeq((c: Category) => c.id, categories)
  }

  predicate Distinct(xs: seq<string>) {
    forall i, j :: 0 <= i < j < |xs| ==> xs[i] != xs[j]
  }

  /** The whole catalog, flattened, in catalog order. */
  const AllCatalogAttractions: seq<Attraction> := AllAttractions(TamilCities)

  lemma CatalogFlattened()
    ensures AllCatalogAttractions
            == TamilCities[0].attractions + TamilCities[1].attractions + TamilCities[2].attractions
               + TamilCities[3].attractions + TamilCities[4].attractions
  {
    assert TamilCities[4..][1..] == [];
  }

  /** Five cities with 3, 2, 2, 2, 2 attractions: eleven in all. */
  lemma CatalogCounts()
    ensures |TamilCities| == 5
    ensures |TamilCities[0].attractions| == 3
    ensures forall i :: 1 <= i < 5 ==> |TamilCities[i].attractions| == 2
    ensures |AllCatalogAttractions| == 11
  {
    CatalogFlattened();
  }

  /** City ids are pairwise distinct. */
  lemma CityIdsDistinct()
    ensures Distinct(CityIds(TamilCities))
  {
    CityIdsValue();
    DistinctCityIdList(CityIds(TamilCities));
  }

  lemma CityIdsValue()
    ensures CityIds(TamilCities) == ["chennai", "madurai", "coimbatore", "trichy", "kanyakumari"]
  {
  }

  lemma DistinctCityIdList(ids: seq<string>)
    requires ids == ["chennai", "madurai", "coimbatore", "trichy", "kanyakumari"]
    ensures Distinct(ids)
  {
  }

  /** Attraction ids are pairwise distinct across the whole catalog. */
  lemma AttractionIdsDistinct()
    ensures Distinct(AttractionIds(AllCatalogAttractions))
  {
    AttractionIdsValue();
    DistinctAttractionIdList(AttractionIds(AllCatalogAttractions));
  }

  lemma AttractionIdsValue()
    ensures AttractionIds(AllCatalogAttractions)
            == ["marina-beach", "kapaleeshwarar-temple", "fort-st-george", "meenakshi-temple",
                "thirumalai-nayakkar-palace", "marudamalai-temple", "isha-yoga-center",
                "rock-fort-temple", "srirangam-temple", "vivekananda-rock", "thiruvalluvar-statue"]
  {
    var c := TamilCities;
    var id := (a: Attraction) => a.id;
    CatalogFlattened();
    MapAppend(id, c[0].attractions + c[1].attractions + c[2].attractions + c[3].attractions, c[4].attractions);
    MapAppend(id, c[0].attractions + c[1].attractions + c[2].attractions, c[3].attractions);
    MapAppend(id, c[0].attractions + c[1].attractions, c[2].attractions);
    MapAppend(id, c[0].attractions, c[1].attractions);
    CityAttractionIds();
    ConcatenatedIds(AttractionIds(c[0].attractions), AttractionIds(c[1].attractions), AttractionIds(c[2].attractions),
                    AttractionIds(c[3].attractions), AttractionIds(c[4].attractions));
  }

  /** Each city's attraction ids, in catalog order. */
  lemma CityAttractionIds()
    ensures AttractionIds(TamilCities[0].attractions) == ["marina-beach", "kapaleeshwarar-temple", "fort-st-george"]
    ensures AttractionIds(TamilCities[1].attractions) == ["meenakshi-temple", "thirumalai-nayakkar-palace"]
    ensures AttractionIds(TamilCities[2].attractions) == ["marudamalai-temple", "isha-yoga-center"]
    ensures AttractionIds(TamilCities[3].attractions) == ["rock-fort-temple", "srirangam-temple"]
    ensures AttractionIds(TamilCities[4].attractions) == ["vivekananda-rock", "thiruvalluvar-statue"]
  {
  }

  lemma ConcatenatedIds(a0: seq<string>, a1: seq<string>, a2: seq<string>, a3: seq<string>, a4: seq<string>)
    requires a0 == ["marina-beach", "kapaleeshwarar-temple", "fort-st-george"]
    requires a1 == ["meenakshi-temple", "thirumalai-nayakkar-palace"]
    requires a2 == ["marudamalai-temple", "isha-yoga-center"]
    requires a3 == ["rock-fort-temple", "srirangam-temple"]
    requires a4 == ["vivekananda-rock", "thiruvalluvar-statue"]
    ensures a0 + a1 + a2 + a3 + a4
            == ["marina-beach", "kapaleeshwarar-temple", "fort-st-george", "meenakshi-temple",
                "thirumalai-nayakkar-palace", "marudamalai-temple", "isha-yoga-center",
                "rock-fort-temple", "srirangam-temple", "vivekananda-rock", "thiruvalluvar-statue"]
  {
  }

  lemma DistinctAttractionIdList(ids: seq<string>)
    requires ids == ["marina-beach", "kapaleeshwarar-temple", "fort-st-george", "meenakshi-temple",
                     "thirumalai-nayakkar-palace", "marudamalai-temple", "isha-yoga-center",
                     "rock-fort-temple", "srirangam-temple", "vivekananda-rock", "thiruvalluvar-statue"]
    ensures Distinct(ids)
  {
  }

  /** Every attraction names the city that contains it. */
  lemma AttractionCityMatches()
    ensures forall i, k :: 0 <= i < |TamilCities| && 0 <= k < |TamilCities[i].attractions| ==>
              TamilCities[i].attractions[k].city == TamilCities[i].name
  {
  }

  /** Category ids are distinct and the first is "all". */
  lemma CategoryIdsShape()
    ensures CategoryIds(AttractionCategories)[0] == "all"
    ensures Distinct(CategoryIds(AttractionCategories))
  {
    CategoryIdsValue();
    DistinctCategoryIdList(CategoryIds(AttractionCategories));
  }

  lemma CategoryIdsValue()
    ensures CategoryIds(AttractionCategories)
            == ["all", "temple", "beach", "historical", "palace", "spiritual", "memorial", "monument"]
  {
  }

  lemma DistinctCategoryIdList(ids: seq<string>)
    requires ids == ["all", "temple", "beach", "historical", "palace", "spiritual", "memorial", "monument"]
    ensures Distinct(ids)
  {
  }

  /** The catalog's category spellings, lowercased. */
  lemma LowerCategoryNames()
    ensures Lower("Beach") == "beach" && Lower("Temple") == "temple" && Lower("Historical") == "historical"
    ensures Lower("Palace") == "palace" && Lower("Spiritual") == "spiritual"
    ensures Lower("Memorial") == "memorial" && Lower("Monument") == "monument"
  {
  }

  /** The category ids other than "all". */
  function FilterIds(): (r: seq<string>)
    ensures r == ["temple", "beach", "historical", "palace", "spiritual", "memorial", "monument"]
  {
    CategoryIdsValue();
    CategoryIds(AttractionCategories)[1..]
  }

  /** Every attraction's lowercased category is a category id other than
      "all". */
  lemma CategoriesAreKnown()
    ensures forall i, k :: 0 <= i < |TamilCities| && 0 <= k < |TamilCities[i].attractions| ==>
              Lower(TamilCities[i].attractions[k].category) in FilterIds()
  {
    LowerCategoryNames();
    var ids := FilterIds();
    forall i, k | 0 <= i < |TamilCities| && 0 <= k < |TamilCities[i].attractions|
      ensures Lower(TamilCities[i].attractions[k].category) in ids
    {
      var c := TamilCities[i].attractions[k].category;
      assert c == "Beach" || c == "Temple" || c == "Historical" || c == "Palace" || c == "Spiritual"
             || c == "Memorial" || c == "Monument";
    }
  }

  /** Every category id other than "all" is used by some attraction. */
  lemma CategoriesAreUsed()
    ensures forall j :: 0 <= j < |FilterIds()| ==>
              exists i, k :: 0 <= i < |TamilCities| && 0 <= k < |TamilCities[i].attractions|
                             && Lower(TamilCities[i].attractions[k].category) == FilterIds()[j]
  {
    LowerCategoryNames();
    var ids := FilterIds();
    assert Lower(TamilCities[0].attractions[1].category) == ids[0];
    assert Lower(TamilCities[0].attractions[0].category) == ids[1];
    assert Lower(TamilCities[0].attractions[2].category) == ids[2];
    assert Lower(TamilCities[1].attractions[1].category) == ids[3];
    assert Lower(TamilCities[2].attractions[1].category) == ids[4];
    assert Lower(TamilCities[4].attractions[0].category) == ids[5];
    assert Lower(TamilCities[4].attractions[1].category) == ids[6];
  }
}

=== FILE: common.dfy ===
/**
 Small building blocks shared by every module of the model: an optional
 value (JavaScript's `null`/`undefined`), the `trim()`-is-empty test used by
 all the "blank text" guards, `Array.prototype.join`, `map`, `flatMap`,
 `find` and `filter`, and ASCII lower-casing.
 */
module Common {

  datatype Option<+T> = None | Some(value: T)

  /** The characters String.prototype.trim strips: white space and line
      terminators as listed in ECMAScript (section 12.2 and 12.3 of ECMA-262). */
  predicate IsJsWhitespace(c: char) {
    c == ' ' || c == '\t' || c == '\n' || c == '\r' || c == '\U{000B}' || c == '\U{000C}'
    || c == '\U{00A0}' || c == '\U{FEFF}' || c == '\U{1680}'
    || ('\U{2000}' <= c <= '\U{200A}')
    || c == '\U{2028}' || c == '\U{2029}' || c == '\U{202F}' || c == '\U{205F}' || c == '\U{3000}'
  }

  /** `!s.trim()`: the string is empty once leading and trailing white space
      is removed, i.e. every character is white space. */
  predicate IsBlank(s: string) {
    forall i :: 0 <= i < |s| ==> IsJsWhitespace(s[i])
  }

  /** The first index at or after `k` that does not hold white space (or
      `|s|`): every character in between is white space. */
  function SkipBlanks(s: string, k: nat): (r: nat)
    requires k <= |s|
    ensures k <= r <= |s|
    ensures forall i :: k <= i < r ==> IsJsWhitespace(s[i])
    ensures r < |s| ==> !IsJsWhitespace(s[r])
    decreases |s| - k
  {
    if k < |s| && IsJsWhitespace(s[k]) then SkipBlanks(s, k + 1) else k
  }

  /** The last index at or before `k` whose preceding character is not
      white space (or 0): every character from it up to `k` is white space. */
  function SkipBlanksBack(s: string, k: nat): (r: nat)
    requires k <= |s|
    ensures r <= k
    ensures forall i :: r <= i < k ==> IsJsWhitespace(s[i])
    ensures r > 0 ==> !IsJsWhitespace(s[r - 1])
  {
    if k > 0 && IsJsWhitespace(s[k - 1]) then SkipBlanksBack(s, k - 1) else k
  }

  /** Drops the leading white space: what remains is a suffix of `s` that is
      empty or starts with a visible character. */
  function TrimStart(s: string): (r: string)
    ensures |r| <= |s| && r == s[|s| - |r|..]
    ensures forall i :: 0 <= i < |s| - |r| ==> IsJsWhitespace(s[i])
    ensures r != "" ==> !IsJsWhitespace(r[0])
    ensures r == "" <==> forall i :: 0 <= i < |s| ==> IsJsWhitespace(s[i])
  {
    var k := SkipBlanks(s, 0);
    assert k < |s| ==> s[k..][0] == s[k];
    s[k..]
  }

  /** Drops the trailing white space: what remains is a prefix of `s` that is
      empty or ends with a visible character. */
  function TrimEnd(s: string): (r: string)
    ensures |r| <= |s| && r == s[..|r|]
    ensures forall i :: |r| <= i < |s| ==> IsJsWhitespace(s[i])
    ensures r != "" ==> !IsJsWhitespace(r[|r| - 1])
    ensures r == "" <==> forall i :: 0 <= i < |s| ==> IsJsWhitespace(s[i])
  {
    var k := SkipBlanksBack(s, |s|);
    assert k > 0 ==> s[..k][k - 1] == s[k - 1];
    s[..k]
  }

  /** `String.prototype.trim`: both ends stripped. */
  function Trim(s: string): (r: string)
    ensures |r| <= |s|
    ensures r == "" <==> forall i :: 0 <= i < |s| ==> IsJsWhitespace(s[i])
    ensures r != "" ==> !IsJsWhitespace(r[0]) && !IsJsWhitespace(r[|r| - 1])
  {
    TrimEnd(TrimStart(s))
  }

  /** `trim()` keeps one contiguous slice of the input and cuts only white
      space on either side of it. */
  lemma TrimSlice(s: string) returns (a: nat, b: nat)
    ensures a <= b <= |s| && Trim(s) == s[a..b]
    ensures forall i :: 0 <= i < a ==> IsJsWhitespace(s[i])
    ensures forall i :: b <= i < |s| ==> IsJsWhitespace(s[i])
  {
    var t := TrimStart(s);
    var r := TrimEnd(t);
    a := |s| - |t|;
    b := a + |r|;
    assert t == s[a..];
    assert r == t[..|r|];
    assert r == s[a..b];
    forall i | b <= i < |s|
      ensures IsJsWhitespace(s[i])
    {
      assert s[i] == t[i - a];
    }
  }

  /** `trim()` leaves nothing exactly when every character is white space:
      `IsBlank` is `!s.trim()`. */
  lemma TrimEmptyIffBlank(s: string)
    ensures Trim(s) == "" <==> IsBlank(s)
  {
  }

  /** `xs.join(sep)`. */
  function Join(sep: string, xs: seq<string>): (r: string)
    ensures |xs| == 0 ==> r == ""
    ensures |xs| == 1 ==> r == xs[0]
    ensures |xs| > 0 ==> xs[0] <= r
  {
    if |xs| == 0 then ""
    else if |xs| == 1 then xs[0]
    else xs[0] + sep + Join(sep, xs[1..])
  }

  /** Joining two non-empty lists is joining each and gluing with the
      separator: the order of the pieces is the order of the list. */
  lemma {:induction false} JoinAppend(sep: string, a: seq<string>, b: seq<string>)
    requires |a| > 0 && |b| > 0
    ensures Join(sep, a + b) == Join(sep, a) + sep + Join(sep, b)
  {
    if |a| == 1 {
      assert (a + b)[1..] == b;
    } else {
      assert (a + b)[1..] == a[1..] + b;
      JoinAppend(sep, a[1..], b);
    }
  }

  /** Length of a join: the pieces plus one separator between neighbours. */
  function SumLengths(xs: seq<string>): nat {
    if |xs| == 0 then 0 else |xs[0]| + SumLengths(xs[1..])
  }

  lemma {:induction false} JoinLength(sep: string, xs: seq<string>)
    requires |xs| > 0
    ensures |Join(sep, xs)| == SumLengths(xs) + (|xs| - 1) * |sep|
  {
    if |xs| > 1 {
      JoinLength(sep, xs[1..]);
    }
  }

  /** `toLowerCase()` restricted to ASCII: the catalog's strings are ASCII. */
  function LowerChar(c: char): char {
    if 'A' <= c <= 'Z' then (c as int - 'A' as int + 'a' as int) as char else c
  }

  function Lower(s: string): (r: string)
    ensures |r| == |s|
    ensures forall i :: 0 <= i < |s| ==> r[i] == LowerChar(s[i])
  {
    seq(|s|, i requires 0 <= i < |s| => LowerChar(s[i]))
  }

  /** `Array.prototype.map`. */
  function MapSeq<A, B>(f: A -> B, s: seq<A>): (r: seq<B>)
    ensures |r| == |s|
    ensures forall i :: 0 <= i < |s| ==> r[i] == f(s[i])
  {
    if |s| == 0 then [] else [f(s[0])] + MapSeq(f, s[1..])
  }

  /** Mapping commutes with concatenation. */
  lemma {:induction false} MapAppend<A, B>(f: A -> B, a: seq<A>, b: seq<A>)
    ensures MapSeq(f, a + b) == MapSeq(f, a) + MapSeq(f, b)
  {
    if |a| > 0 {
      assert (a + b)[0] == a[0] && (a + b)[1..] == a[1..] + b;
      MapAppend(f, a[1..], b);
    }
  }

  /** `Array.prototype.flatMap`: the pieces of every element, in order. */
  function FlatMap<A, B>(f: A -> seq<B>, s: seq<A>): seq<B> {
    if |s| == 0 then [] else f(s[0]) + FlatMap(f, s[1..])
  }

  /** Flat-mapping commutes with concatenation. */
  lemma {:induction false} FlatMapAppend<A, B>(f: A -> seq<B>, a: seq<A>, b: seq<A>)
    ensures FlatMap(f, a + b) == FlatMap(f, a) + FlatMap(f, b)
  {
    if |a| == 0 {
      assert a + b == b;
    } else {
      assert (a + b)[0] == a[0] && (a + b)[1..] == a[1..] + b;
      FlatMapAppend(f, a[1..], b);
    }
  }

  /** Every element of every piece is in the result. */
  lemma {:induction false} FlatMapCovers<A, B>(f: A -> seq<B>, s: seq<A>, i: nat, x: B)
    requires i < |s| && x in f(s[i])
    ensures x in FlatMap(f, s)
  {
    assert FlatMap(f, s) == f(s[0]) + FlatMap(f, s[1..]);
    if i > 0 {
      assert s[i] == s[1..][i - 1];
      FlatMapCovers(f, s[1..], i - 1, x);
    }
  }

  /** Every element of the result comes from some piece. */
  lemma {:induction false} FlatMapSources<A, B>(f: A -> seq<B>, s: seq<A>, x: B) returns (i: nat)
    requires x in FlatMap(f, s)
    ensures i < |s| && x in f(s[i])
  {
    assert FlatMap(f, s) == f(s[0]) + FlatMap(f, s[1..]);
    if x in f(s[0]) {
      i := 0;
    } else {
      assert x in FlatMap(f, s[1..]);
      var j := FlatMapSources(f, s[1..], x);
      i := j + 1;
      assert s[i] == s[1..][j];
    }
  }

  /** Pieces of at most one element each: the result is no longer than the input. */
  lemma {:induction false} FlatMapShort<A, B>(f: A -> seq<B>, s: seq<A>)
    requires forall i :: 0 <= i < |s| ==> |f(s[i])| <= 1
    ensures |FlatMap(f, s)| <= |s|
  {
    if |s| > 0 {
      FlatMapShort(f, s[1..]);
    }
  }

  /** Pieces of exactly one element each: the result lines up with the input. */
  lemma {:induction false} FlatMapSingletons<A, B>(f: A -> seq<B>, s: seq<A>)
    requires forall i :: 0 <= i < |s| ==> |f(s[i])| == 1
    ensures |FlatMap(f, s)| == |s|
    ensures forall i :: 0 <= i < |s| ==> FlatMap(f, s)[i] == f(s[i])[0]
  {
    if |s| > 0 {
      FlatMapSingletons(f, s[1..]);
      var r := FlatMap(f, s);
      forall i | 0 < i < |s|
        ensures r[i] == f(s[i])[0]
      {
        assert s[i] == s[1..][i - 1];
      }
    }
  }

  /** Empty pieces everywhere: nothing is produced. */
  lemma {:induction false} FlatMapEmpty<A, B>(f: A -> seq<B>, s: seq<A>)
    requires forall i :: 0 <= i < |s| ==> f(s[i]) == []
    ensures FlatMap(f, s) == []
  {
    if |s| > 0 {
      FlatMapEmpty(f, s[1..]);
    }
  }

  /** `Array.prototype.find`: the first element satisfying `p`, if any. */
  function FindFirst<T(==)>(p: T -> bool, s: seq<T>): (r: Option<T>)
    ensures r.None? <==> forall i :: 0 <= i < |s| ==> !p(s[i])
    ensures r.Some? ==> exists i :: 0 <= i < |s| && s[i] == r.value && p(r.value)
                                   && forall j :: 0 <= j < i ==> !p(s[j])
  {
    if |s| == 0 then None
    else if p(s[0]) then Some(s[0])
    else
      var r := FindFirst(p, s[1..]);
      if r.Some? then
        var k :| 0 <= k < |s[1..]| && s[1..][k] == r.value && p(r.value)
                 && forall j :: 0 <= j < k ==> !p(s[1..][j]);
        assert s[k + 1] == r.value;
        r
      else r
  }

  /** `Array.prototype.filter`: keeps, in order, the elements satisfying `p`. */
  function Filter<T>(p: T -> bool, s: seq<T>): (r: seq<T>)
    ensures |r| <= |s|
    ensures forall i :: 0 <= i < |r| ==> r[i] in s && p(r[i])
    ensures forall i :: 0 <= i < |s| && p(s[i]) ==> s[i] in r
  {
    if |s| == 0 then []
    else if p(s[0]) then [s[0]] + Filter(p, s[1..])
    else Filter(p, s[1..])
  }

  /** Filtering commutes with concatenation, which is what "order preserving"
      means for a filter. */
  lemma {:induction false} FilterAppend<T>(p: T -> bool, a: seq<T>, b: seq<T>)
    ensures Filter(p, a + b) == Filter(p, a) + Filter(p, b)
  {
    if |a| == 0 {
      assert a + b == b;
    } else {
      assert (a + b)[1..] == a[1..] + b;
      FilterAppend(p, a[1..], b);
    }
  }

  /** A filter whose predicate holds everywhere keeps the whole list. */
  lemma {:induction false} FilterAll<T>(p: T -> bool, s: seq<T>)
    requires forall i :: 0 <= i < |s| ==> p(s[i])
    ensures Filter(p, s) == s
  {
    if |s| > 0 {
      FilterAll(p, s[1..]);
    }
  }

  /** A filter whose predicate holds nowhere keeps nothing. */
  lemma {:induction false} FilterNone<T>(p: T -> bool, s: seq<T>)
    requires forall i :: 0 <= i < |s| ==> !p(s[i])
    ensures Filter(p, s) == []
  {
    if |s| > 0 {
      FilterNone(p, s[1..]);
    }
  }
}

=== FILE: home_page.dfy ===
/**
 The home page (app/page.tsx): its initial language selection, "Clear All",
 and the effect that translates the transcript one second after the last
 change of the transcript or of the language selection.

 The effect is modelled on a discrete timeline. Each `Change` is one re-run
 of the effect: the cleanup of the previous run cancels its timer, then a
 new timer is armed if the transcript is not blank and some language is
 selected. A timer whose deadline is not after the next change fires first
 (ties go to the timer); after the last change the pending timer fires.
 */
module HomePage {
  import opened Common
  import Translation

  const Delay: int := 1000

  /** The effect's dependencies at one re-run, at time `time` (ms). */
  datatype Change = Change(time: int, transcript: string, languages: seq<string>)

  /** One `translateText(transcript, languages)` call and when it happens. */
  datatype Call = Call(time: int, transcript: string, languages: seq<string>)

  datatype Timer = Timer(deadline: int, transcript: string, languages: seq<string>)

  /** `transcript.trim() && selectedLanguages.length > 0`. */
  predicate Arms(c: Change) {
    !IsBlank(c.transcript) && |c.languages| > 0
  }

  /** A change arms a timer iff its transcript holds a character `trim()`
      keeps and some language is selected. */
  lemma ArmsIffVisibleText(c: Change)
    ensures Arms(c) <==> Trim(c.transcript) != "" && |c.languages| > 0
    ensures Arms(c) <==> (exists i :: 0 <= i < |c.transcript| && !IsJsWhitespace(c.transcript[i]))
                         && |c.languages| > 0
  {
    TrimEmptyIffBlank(c.transcript);
  }

  // ---------------------------------------------------------------------
  // Operational model: the timer as React and setTimeout run it.
  // ---------------------------------------------------------------------

  datatype Scheduler = Scheduler(pending: Option<Timer>, calls: seq<Call>)

  const Idle: Scheduler := Scheduler(None, [])

  /** Lets time pass until `now`: a pending timer whose deadline has come fires. */
  function AdvanceTo(s: Scheduler, now: int): (r: Scheduler)
    ensures s.pending.Some? && s.pending.value.deadline <= now ==>
              r.pending.None? && |r.calls| == |s.calls| + 1 && s.calls <= r.calls
    ensures !(s.pending.Some? && s.pending.value.deadline <= now) ==> r == s
  {
    if s.pending.Some? && s.pending.value.deadline <= now then
      var t := s.pending.value;
      Scheduler(None, s.calls + [Call(t.deadline, t.transcript, t.languages)])
    else s
  }

  /** One re-run of the effect: cleanup cancels the pending timer, and a new
      one is armed for `time + 1000` with the values of this run. */
  function OnChange(s: Scheduler, c: Change): (r: Scheduler)
    ensures s.calls <= r.calls && |r.calls| <= |s.calls| + 1
    ensures Arms(c) ==> r.pending == Some(Timer(c.time + Delay, c.transcript, c.languages))
    ensures !Arms(c) ==> r.pending.None?
  {
    var s' := AdvanceTo(s, c.time);
    if Arms(c) then s'.(pending := Some(Timer(c.time + Delay, c.transcript, c.languages)))
    else s'.(pending := None)
  }

  function Run(s: Scheduler, cs: seq<Change>): Scheduler
    decreases |cs|
  {
    if |cs| == 0 then s else Run(OnChange(s, cs[0]), cs[1..])
  }

  /** After the last change the pending timer, if any, fires. */
  function Finish(s: Scheduler): Scheduler {
    if s.pending.Some? then AdvanceTo(s, s.pending.value.deadline) else s
  }

  // ---------------------------------------------------------------------
  // Declarative model: which changes end in a call.
  // ---------------------------------------------------------------------

  function NextTime(cs: seq<Change>): Option<int> {
    if |cs| == 0 then None else Some(cs[0].time)
  }

  /** The call a timer makes if nothing interrupts it before its deadline. */
  function Fires(p: Option<Timer>, next: Option<int>): seq<Call> {
    if p.Some? && (next.None? || p.value.deadline <= next.value) then
      [Call(p.value.deadline, p.value.transcript, p.value.languages)]
    else []
  }

  function TimerOf(c: Change): Option<Timer> {
    if Arms(c) then Some(Timer(c.time + Delay, c.transcript, c.languages)) else None
  }

  /** A change produces a call iff it arms a timer and the next change is at
      least one delay later. */
  function Calls(cs: seq<Change>): seq<Call> {
    if |cs| == 0 then [] else Fires(TimerOf(cs[0]), NextTime(cs[1..])) + Calls(cs[1..])
  }

  lemma {:induction false} RunMatchesCalls(s: Scheduler, cs: seq<Change>)
    ensures Finish(Run(s, cs)).calls == s.calls + Fires(s.pending, NextTime(cs)) + Calls(cs)
    decreases |cs|
  {
    if |cs| == 0 {
    } else {
      var s' := OnChange(s, cs[0]);
      assert Run(s, cs) == Run(s', cs[1..]);
      OneChange(s, cs[0]);
      RunMatchesCalls(s', cs[1..]);
      assert Calls(cs) == Fires(TimerOf(cs[0]), NextTime(cs[1..])) + Calls(cs[1..]);
    }
  }

  /** One re-run in declarative terms: it issues the pending timer's call
      iff that timer was due, and leaves the timer this change arms. */
  lemma OneChange(s: Scheduler, c: Change)
    ensures OnChange(s, c).calls == s.calls + Fires(s.pending, Some(c.time))
    ensures OnChange(s, c).pending == TimerOf(c)
  {
  }

  /** The two models agree: the calls the timer machinery issues are
      exactly the ones the declarative rule predicts. */
  lemma {:induction false} OperationalMatchesDeclarative(cs: seq<Change>)
    ensures Finish(Run(Idle, cs)).calls == Calls(cs)
  {
    RunMatchesCalls(Idle, cs);
  }

  /** Every call carries the transcript and languages of a change that
      armed a timer, and happens one delay after it. */
  lemma {:induction false} CallsComeFromArmingChanges(cs: seq<Change>, k: nat)
    requires k < |Calls(cs)|
    ensures exists i :: 0 <= i < |cs| && Arms(cs[i])
                        && Calls(cs)[k] == Call(cs[i].time + Delay, cs[i].transcript, cs[i].languages)
  {
    var head := Fires(TimerOf(cs[0]), NextTime(cs[1..]));
    if k < |head| {
      assert Calls(cs)[k] == head[k];
    } else {
      assert Calls(cs)[k] == Calls(cs[1..])[k - |head|];
      CallsComeFromArmingChanges(cs[1..], k - |head|);
      var i :| 0 <= i < |cs[1..]| && Arms(cs[1..][i])
               && Calls(cs[1..])[k - |head|] == Call(cs[1..][i].time + Delay, cs[1..][i].transcript, cs[1..][i].languages);
      assert cs[i + 1] == cs[1..][i];
    }
  }

  /** With no language selected at any point, no call is ever issued. */
  lemma {:induction false} NoLanguagesNoCalls(cs: seq<Change>)
    requires forall i :: 0 <= i < |cs| ==> |cs[i].languages| == 0
    ensures Calls(cs) == []
  {
    if |cs| > 0 {
      NoLanguagesNoCalls(cs[1..]);
    }
  }

  /** Changes spaced under one delay apart: exactly the last change can
      produce a call, and it does iff it arms a timer. */
  lemma {:induction false} BurstYieldsLastValues(cs: seq<Change>)
    requires |cs| > 0
    requires forall i :: 0 <= i < |cs| - 1 ==> cs[i + 1].time < cs[i].time + Delay
    ensures var last := cs[|cs| - 1];
            Calls(cs) == if Arms(last) then [Call(last.time + Delay, last.transcript, last.languages)] else []
  {
    assert Calls(cs) == Fires(TimerOf(cs[0]), NextTime(cs[1..])) + Calls(cs[1..]);
    if |cs| > 1 {
      assert cs[1].time < cs[0].time + Delay;
      assert Fires(TimerOf(cs[0]), NextTime(cs[1..])) == [];
      BurstYieldsLastValues(cs[1..]);
      assert cs[1..][|cs[1..]| - 1] == cs[|cs| - 1];
    } else {
      assert cs[1..] == [];
    }
  }

  /** A change to a blank transcript or an empty selection cancels the
      pending timer and arms none, whatever was pending. */
  lemma DisarmingChangeCancels(s: Scheduler, c: Change)
    requires !Arms(c)
    requires s.pending.Some? && s.pending.value.deadline > c.time
    ensures OnChange(s, c) == Scheduler(None, s.calls)
  {
  }

  // ---------------------------------------------------------------------
  // Page state and handlers.
  // ---------------------------------------------------------------------

  datatype PageState = PageState(transcript: string, selectedLanguages: seq<string>, translation: Translation.State)

  const InitialSelection: seq<string> := ["en", "es", "hi"]

  function InitialPage(): (r: PageState)
    ensures r.transcript == "" && r.selectedLanguages == ["en", "es", "hi"]
    ensures r.translation.translations == [] && !r.translation.isTranslating && r.translation.error.None?
  {
    PageState("", InitialSelection, Translation.Initial)
  }

  /** `handleClearAll()`: the transcript and the translation results go, the
      selection stays. */
  function HandleClearAll(p: PageState): (r: PageState)
    ensures r.transcript == "" && r.selectedLanguages == p.selectedLanguages
    ensures r.translation.translations == [] && r.translation.error.None?
    ensures r.translation.isTranslating == p.translation.isTranslating
  {
    PageState("", p.selectedLanguages, Translation.Clear(p.translation))
  }
}

=== FILE: language_selector.dfy ===
/**
 The list operations of the language selector
 (components/language-selector.tsx): toggling one code, selecting all,
 clearing, and the comma-separated summary of the selected names.
 */
module LanguageSelector {
  import opened Common
  import opened Languages

  function NotCode(code: string): string -> bool {
    c => c != code
  }

  /** `toggleLanguage(code)`: remove every occurrence if present, otherwise
      append at the end. */
  function Toggle(selected: seq<string>, code: string): (r: seq<string>)
    ensures code in selected ==> code !in r
    ensures code !in selected ==> code in r
    ensures forall c :: c != code ==> (c in r <==> c in selected)
    ensures code !in selected ==> r == selected + [code]
    ensures code in selected ==> r == Filter(NotCode(code), selected)
  {
    if code in selected then Filter(NotCode(code), selected) else selected + [code]
  }

  /** Toggling an absent code twice gives back the original selection. */
  lemma {:induction false} ToggleTwiceAbsent(selected: seq<string>, code: string)
    requires code !in selected
    ensures Toggle(Toggle(selected, code), code) == selected
  {
    FilterAppend(NotCode(code), selected, [code]);
    FilterAll(NotCode(code), selected);
    assert Filter(NotCode(code), [code]) == [];
  }

  /** Toggling a present code twice moves it, once, to the end. */
  lemma {:induction false} ToggleTwicePresent(selected: seq<string>, code: string)
    requires code in selected
    ensures Toggle(Toggle(selected, code), code) == Filter(NotCode(code), selected) + [code]
  {
  }

  /** Removing a code keeps the other codes in their order: the filter
      distributes over any split of the selection. */
  lemma RemovalKeepsOrder(a: seq<string>, b: seq<string>, code: string)
    requires code in a + b
    ensures Toggle(a + b, code) == Filter(NotCode(code), a) + Filter(NotCode(code), b)
  {
    FilterAppend(NotCode(code), a, b);
  }

  /** `selectAll()`: the catalog codes in catalog order. */
  function SelectAll(): (r: seq<string>)
    ensures r == ["en", "es", "de", "hi", "ja"]
    ensures forall c :: c in r <==> Known(c)
  {
    CatalogShape();
    Codes(SupportedLanguages)
  }

  /** `clearAll()`. */
  function ClearAll(): (r: seq<string>)
    ensures |r| == 0
  {
    []
  }

  /** `selectedLanguages.map(code => find(...)?.name).filter(Boolean)`:
      catalog names in selection order, unknown codes dropped. */
  function Names(selected: seq<string>): (r: seq<string>)
    ensures |r| <= |selected|
  {
    FlatMapShort(NameOf, selected);
    FlatMap(NameOf, selected)
  }

  /** One code's contribution: its catalog name, or nothing for a code the
      catalog does not have (`.filter(Boolean)` drops the `undefined`). */
  function NameOf(code: string): (r: seq<string>)
    ensures !Known(code) ==> r == []
    ensures Known(code) ==> r == [DisplayName(code)]
  {
    var l := Find(code);
    if l.Some? && l.value.name != "" then [l.value.name] else []
  }

  /** The names of a concatenation are the concatenated names. */
  lemma NamesAppend(a: seq<string>, b: seq<string>)
    ensures Names(a + b) == Names(a) + Names(b)
  {
    FlatMapAppend(NameOf, a, b);
  }

  /** `getSelectedLanguageNames()`. */
  function SelectedLanguageNames(selected: seq<string>): (r: string)
    ensures Names(selected) == [] ==> r == ""
    ensures (forall i :: 0 <= i < |selected| ==> !Known(selected[i])) ==> r == ""
  {
    UnknownOnlyHasNoNames(selected);
    Join(", ", Names(selected))
  }

  lemma UnknownOnlyHasNoNames(selected: seq<string>)
    ensures (forall i :: 0 <= i < |selected| ==> !Known(selected[i])) ==> Names(selected) == []
  {
    if forall i :: 0 <= i < |selected| ==> !Known(selected[i]) {
      FlatMapEmpty(NameOf, selected);
    }
  }

  /** On a selection of known codes, the names are the display names,
      position by position. */
  lemma NamesOfKnown(selected: seq<string>)
    requires forall i :: 0 <= i < |selected| ==> Known(selected[i])
    ensures |Names(selected)| == |selected|
    ensures forall i :: 0 <= i < |selected| ==> Names(selected)[i] == DisplayName(selected[i])
  {
    FlatMapSingletons(NameOf, selected);
  }

  /** Every code of the full selection is a catalog code. */
  lemma SelectAllKnown()
    ensures forall i :: 0 <= i < |SelectAll()| ==> Known(SelectAll()[i])
  {
    var all := SelectAll();
    forall i | 0 <= i < |all|
      ensures Known(all[i])
    {
      assert all[i] == SupportedLanguages[i].code;
    }
  }

  /** The full selection's names are the catalog's names, in catalog order. */
  lemma SelectAllNames()
    ensures Names(SelectAll()) == CatalogNames(SupportedLanguages)
  {
    var all := SelectAll();
    SelectAllKnown();
    NamesOfKnown(all);
    forall i | 0 <= i < |all|
      ensures Names(all)[i] == SupportedLanguages[i].name
    {
      assert all[i] == SupportedLanguages[i].code;
      DisplayNameOfEntry(i);
    }
  }

  /** The summary of the full selection lists every name in catalog order. */
  lemma SelectAllSummary()
    ensures SelectedLanguageNames(SelectAll()) == Join(", ", ["English", "Spanish", "German", "Hindi", "Japanese"])
  {
    SelectAllNames();
    CatalogShape();
  }

  /** Adding a known code to a non-empty selection extends its summary by
      ", " and that code's name. */
  lemma SummaryAfterToggleOn(selected: seq<string>, code: string)
    requires code !in selected && Known(code) && Names(selected) != []
    ensures SelectedLanguageNames(Toggle(selected, code))
            == SelectedLanguageNames(selected) + ", " + DisplayName(code)
  {
    var one := Names([code]);
    NamesOfKnown([code]);
    assert one == [DisplayName(code)];
    assert Toggle(selected, code) == selected + [code];
    NamesAppend(selected, [code]);
    JoinAppend(", ", Names(selected), one);
  }
}

=== FILE: languages.dfy ===
/**
 The target-language catalog (`SUPPORTED_LANGUAGES` of hooks/use-translation.ts)
 and the lookup every component performs on it. The flag glyphs are left out;
 whether a flag is shown is modelled in ResultsView.
 */
module Languages {
  import opened Common

  datatype Language = Language(code: string, name: string)

  const SupportedLanguages: seq<Language> := [
    Language("en", "English"),
    Language("es", "Spanish"),
    Language("de", "German"),
    Language("hi", "Hindi"),
    Language("ja", "Japanese")
  ]

  /** The catalog codes in catalog order (`SUPPORTED_LANGUAGES.map(l => l.code)`). */
  function Codes(langs: seq<Language>): seq<string> {
    MapSeq((l: Language) => l.code, langs)
  }

  /** The catalog names in catalog order. */
  function CatalogNames(langs: seq<Language>): seq<string> {
    MapSeq((l: Language) => l.name, langs)
  }

  predicate Known(code: string) {
    exists i :: 0 <= i < |SupportedLanguages| && SupportedLanguages[i].code == code
  }

  /** `Array.prototype.find` on the catalog, written out for the code
      field: the first entry whose code matches. */
  function FindIn(langs: seq<Language>, code: string): (r: Option<Language>)
    ensures r.None? <==> forall i :: 0 <= i < |langs| ==> langs[i].code != code
    ensures r.Some? ==> exists i :: 0 <= i < |langs| && langs[i] == r.value && r.value.code == code
                                   && forall j :: 0 <= j < i ==> langs[j].code != code
  {
    if |langs| == 0 then None
    else if langs[0].code == code then Some(langs[0])
    else
      var r := FindIn(langs[1..], code);
      if r.Some? then
        var k :| 0 <= k < |langs[1..]| && langs[1..][k] == r.value && r.value.code == code
                 && forall j :: 0 <= j < k ==> langs[1..][j].code != code;
        assert langs[k + 1] == r.value;
        r
      else r
  }

  /** `FindIn` is `find` with the code test as predicate. It is kept as its
      own recursion because proofs over the literal catalog stay cheap with
      it, and a lambda-parameterised search makes them costly. */
  lemma {:induction false} FindInIsFindFirst(langs: seq<Language>, code: string)
    ensures FindIn(langs, code) == FindFirst((l: Language) => l.code == code, langs)
  {
    if |langs| > 0 && langs[0].code != code {
      FindInIsFindFirst(langs[1..], code);
    }
  }

  /** `SUPPORTED_LANGUAGES.find(lang => lang.code === code)`. */
  function Find(code: string): (r: Option<Language>)
    ensures r.Some? <==> Known(code)
    ensures r.Some? ==> r.value in SupportedLanguages && r.value.code == code
  {
    FindIn(SupportedLanguages, code)
  }

  /** `language?.name || langCode`: the catalog name, or the raw code when the
      code is unknown (or, never the case here, its name is empty). */
  function DisplayName(code: string): (r: string)
    ensures Known(code) ==> exists i :: 0 <= i < |SupportedLanguages| && SupportedLanguages[i].code == code
                                        && r == SupportedLanguages[i].name
    ensures !Known(code) ==> r == code
  {
    var l := Find(code);
    if l.Some? && l.value.name != "" then l.value.name else code
  }

  /** The catalog has five entries with the distinct codes en, es, de, hi, ja. */
  lemma CatalogShape()
    ensures |SupportedLanguages| == 5
    ensures Codes(SupportedLanguages) == ["en", "es", "de", "hi", "ja"]
    ensures CatalogNames(SupportedLanguages) == ["English", "Spanish", "German", "Hindi", "Japanese"]
    ensures forall i, j :: 0 <= i < j < |SupportedLanguages| ==> SupportedLanguages[i].code != SupportedLanguages[j].code
  {
    var c := Codes(SupportedLanguages);
    assert c[0] == "en" && c[1] == "es" && c[2] == "de" && c[3] == "hi" && c[4] == "ja";
  }

  /** Codes are distinct, so the display name is the name of the one entry with
      that code. */
  lemma DisplayNameOfEntry(i: nat)
    requires i < |SupportedLanguages|
    ensures DisplayName(SupportedLanguages[i].code) == SupportedLanguages[i].name
  {
    CatalogShape();
  }

}

=== FILE: results_view.dfy ===
/**
 The logic of the translation results card (components/translation-results.tsx):
 which of its four views renders, the text of "Download All", the summary
 label, the flag shown per card, and the `playingIndex` bookkeeping of its
 speak buttons. Clipboard, sharing and the download mechanics are not part
 of this model.
 */
module ResultsView {
  import opened Common
  import Languages
  import Translation
  import Batch

  datatype View =
    | ErrorCard(message: string)
    | LoadingSkeleton
    | Placeholder
    | ResultList(translations: seq<Translation.Translation>)

  /** `if (error)` tests JavaScript truthiness: an empty message is no error. */
  function HasError(error: Option<string>): (r: bool)
    ensures error.None? ==> !r
    ensures error == Some("") ==> !r
    ensures error.Some? && |error.value| > 0 ==> r
  {
    error.Some? && error.value != ""
  }

  /** The early returns of the component, in order. */
  function SelectView(translations: seq<Translation.Translation>, isTranslating: bool, error: Option<string>): (r: View)
    ensures r.ErrorCard? <==> HasError(error)
    ensures r.ErrorCard? ==> r.message == error.value
    ensures r.LoadingSkeleton? <==> !HasError(error) && isTranslating
    ensures r.Placeholder? <==> !HasError(error) && !isTranslating && |translations| == 0
    ensures r.ResultList? <==> !HasError(error) && !isTranslating && |translations| > 0
    ensures r.ResultList? ==> r.translations == translations
  {
    if HasError(error) then ErrorCard(error.value)
    else if isTranslating then LoadingSkeleton
    else if |translations| == 0 then Placeholder
    else ResultList(translations)
  }

  /** The view of the hook's state after a batch settles: a failed batch
      shows its error, a successful one its results (or the placeholder when
      no language was requested). */
  lemma ViewAfterBatch(s: Translation.State, text: string, targets: seq<string>,
                       oracle: Batch.Oracle, pick: nat)
    requires !IsBlank(text)
    ensures var t := Translation.TranslateText(s, text, targets, oracle, pick);
            Batch.AllOk(targets, Batch.RepliesFor(oracle, text)) ==>
              SelectView(t.translations, t.isTranslating, t.error)
              == (if |targets| == 0 then Placeholder else ResultList(t.translations))
  {
  }

  /** After `clearTranslations()` the card shows the placeholder, or the
      skeleton while a batch is still in flight. */
  lemma ClearedView(s: Translation.State)
    ensures var c := Translation.Clear(s);
            SelectView(c.translations, c.isTranslating, c.error)
            == (if s.isTranslating then LoadingSkeleton else Placeholder)
  {
  }

  /** One block of the download: `"<language>:\n<text>\n"`. */
  function Block(t: Translation.Translation): string {
    t.language + ":\n" + t.text + "\n"
  }

  function Blocks(ts: seq<Translation.Translation>): (r: seq<string>)
    ensures |r| == |ts|
    ensures forall i :: 0 <= i < |ts| ==> r[i] == Block(ts[i])
  {
    MapSeq(Block, ts)
  }

  /** `downloadTranslations()`'s file content: the blocks joined by a blank line. */
  function DownloadContent(ts: seq<Translation.Translation>): (r: string)
    ensures |ts| == 0 ==> r == ""
    ensures |ts| > 0 ==> Block(ts[0]) <= r
  {
    Join("\n", Blocks(ts))
  }

  /** The download of two lists concatenated is the two downloads separated
      by one more newline: entries appear in list order. */
  lemma DownloadAppend(a: seq<Translation.Translation>, b: seq<Translation.Translation>)
    requires |a| > 0 && |b| > 0
    ensures DownloadContent(a + b) == DownloadContent(a) + "\n" + DownloadContent(b)
  {
    MapAppend(Block, a, b);
    JoinAppend("\n", Blocks(a), Blocks(b));
  }

  /** Its length: every block plus one newline between neighbours. */
  lemma DownloadLength(ts: seq<Translation.Translation>)
    requires |ts| > 0
    ensures |DownloadContent(ts)| == SumLengths(Blocks(ts)) + |ts| - 1
  {
    JoinLength("\n", Blocks(ts));
  }

  /** The plural suffix of "N translation(s) ready". */
  function PluralSuffix(count: nat): (r: string)
    ensures r == "s" || r == ""
    ensures r == "s" <==> count != 1
  {
    if count != 1 then "s" else ""
  }

  /** A flag glyph is rendered for the five catalog codes and no other. */
  predicate ShowsFlag(code: string) {
    code == "en" || code == "es" || code == "de" || code == "hi" || code == "ja"
  }

  /** The flag cases in the card match the language catalog exactly. */
  lemma FlagIffCatalog(code: string)
    ensures ShowsFlag(code) <==> Languages.Known(code)
  {
    Languages.CatalogShape();
    if Languages.Known(code) {
      var i :| 0 <= i < |Languages.SupportedLanguages| && Languages.SupportedLanguages[i].code == code;
      assert Languages.Codes(Languages.SupportedLanguages)[i] == code;
    }
    if ShowsFlag(code) {
      var c := Languages.Codes(Languages.SupportedLanguages);
      assert code in c;
      var i :| 0 <= i < |c| && c[i] == code;
      assert Languages.SupportedLanguages[i].code == code;
    }
  }

  /** The speak buttons' `playingIndex`, driven by the utterance callbacks.
      `speakText` itself leaves it alone; with no synthesis it only toasts. */
  datatype SpeakEvent = SpeakStarted(index: int) | SpeakEnded | SpeakFailed

  function OnSpeakEvent(playing: Option<int>, e: SpeakEvent): (r: Option<int>)
    ensures e.SpeakStarted? ==> r == Some(e.index)
    ensures !e.SpeakStarted? ==> r.None?
  {
    match e
    case SpeakStarted(i) => Some(i)
    case _ => None
  }

  /** The play button of card `index` is disabled iff that card is playing. */
  predicate PlayDisabled(playing: Option<int>, index: int) {
    playing == Some(index)
  }

  /** At most one card's button is disabled, and after an end or error none. */
  lemma OneCardPlaysAtATime(playing: Option<int>, e: SpeakEvent, i: int, j: int)
    requires PlayDisabled(OnSpeakEvent(playing, e), i) && PlayDisabled(OnSpeakEvent(playing, e), j)
    ensures i == j && e.SpeakStarted? && e.index == i
  {
  }
}

=== FILE: speech_recognition.dfy ===
/**
 The `useSpeechRecognition` hook (hooks/use-speech-recognition.ts) as a state
 machine. The platform recognizer is outside the model: its callbacks
 (`onstart`, `onend`, `onresult`, `onerror`) are events, and whether a
 recognizer exists is a flag. `startListening`/`stopListening` also report
 whether they asked the platform to start/stop.
 */
module SpeechRecognition {
  import opened Common

  datatype State = State(isListening: bool, transcript: string, interim: string, error: Option<string>)

  /** One entry of `event.results`: its finality and its best alternative's
      transcript (`result[0].transcript`). */
  datatype RecognitionResult = RecognitionResult(isFinal: bool, text: string)

  /** A result event: the whole result list and the first changed index. */
  datatype ResultEvent = ResultEvent(results: seq<RecognitionResult>, resultIndex: nat)

  /** In-order concatenation of the final (or, with `wantFinal` false, the
      non-final) transcripts among `results[from..]`. */
  function Gather(results: seq<RecognitionResult>, from: nat, wantFinal: bool): string
    decreases |results| - from
  {
    if from >= |results| then ""
    else (if results[from].isFinal == wantFinal then results[from].text else "")
         + Gather(results, from + 1, wantFinal)
  }

  /** The summed length of the transcripts in `results[from..]`. */
  function WindowLength(results: seq<RecognitionResult>, from: nat): nat
    decreases |results| - from
  {
    if from >= |results| then 0 else |results[from].text| + WindowLength(results, from + 1)
  }

  /** Every transcript of the window lands in exactly one of the two texts. */
  lemma {:induction false} GatherPartitionsWindow(results: seq<RecognitionResult>, from: nat)
    ensures |Gather(results, from, true)| + |Gather(results, from, false)| == WindowLength(results, from)
    decreases |results| - from
  {
    if from < |results| {
      GatherPartitionsWindow(results, from + 1);
    }
  }

  /** The loop of `onresult`: one pass over the window, accumulating the
      final and the interim text separately. */
  method ScanResults(ev: ResultEvent) returns (finalText: string, interimText: string)
    ensures finalText == Gather(ev.results, ev.resultIndex, true)
    ensures interimText == Gather(ev.results, ev.resultIndex, false)
  {
    finalText, interimText := "", "";
    var i := ev.resultIndex;
    while i < |ev.results|
      invariant ev.resultIndex <= i
      invariant ev.resultIndex <= |ev.results| ==> i <= |ev.results|
      invariant finalText + Gather(ev.results, i, true) == Gather(ev.results, ev.resultIndex, true)
      invariant interimText + Gather(ev.results, i, false) == Gather(ev.results, ev.resultIndex, false)
      decreases |ev.results| - i
    {
      var r := ev.results[i];
      if r.isFinal {
        assert Gather(ev.results, i, true) == r.text + Gather(ev.results, i + 1, true);
        assert Gather(ev.results, i, false) == Gather(ev.results, i + 1, false);
        assert finalText + Gather(ev.results, i, true) == (finalText + r.text) + Gather(ev.results, i + 1, true);
        finalText := finalText + r.text;
      } else {
        assert Gather(ev.results, i, true) == Gather(ev.results, i + 1, true);
        assert Gather(ev.results, i, false) == r.text + Gather(ev.results, i + 1, false);
        assert interimText + Gather(ev.results, i, false) == (interimText + r.text) + Gather(ev.results, i + 1, false);
        interimText := interimText + r.text;
      }
      i := i + 1;
    }
  }

  /** `onresult`: final fragments are appended (only if their concatenation is
      non-empty), the interim fragment is replaced wholesale. */
  function OnResult(s: State, ev: ResultEvent): (r: State)
    ensures s.transcript <= r.transcript
    ensures r.transcript == s.transcript + Gather(ev.results, ev.resultIndex, true)
    ensures r.interim == Gather(ev.results, ev.resultIndex, false)
    ensures r.isListening == s.isListening && r.error == s.error
  {
    var fin := Gather(ev.results, ev.resultIndex, true);
    var interim := Gather(ev.results, ev.resultIndex, false);
    assert fin == "" ==> s.transcript + fin == s.transcript;
    State(s.isListening, if fin != "" then s.transcript + fin else s.transcript, interim, s.error)
  }

  /** `onstart`. */
  function OnStart(s: State): (r: State)
    ensures r.isListening && r.error == None
    ensures r.transcript == s.transcript && r.interim == s.interim
  {
    s.(isListening := true, error := None)
  }

  /** `onend`. */
  function OnEnd(s: State): (r: State)
    ensures !r.isListening
    ensures r.transcript == s.transcript && r.interim == s.interim && r.error == s.error
  {
    s.(isListening := false)
  }

  /** `onerror`: the platform's error token is stored. */
  function OnError(s: State, code: string): (r: State)
    ensures !r.isListening && r.error == Some(code)
    ensures r.transcript == s.transcript && r.interim == s.interim
  {
    s.(isListening := false, error := Some(code))
  }

  /** What a user action did: the new state and whether the platform was
      asked to start (or stop) recognising. */
  datatype Action = Action(state: State, requested: bool)

  /** `startListening()`: clears the texts and the error and asks the
      platform to start; `isListening` waits for `onstart`. */
  function StartListening(s: State, hasRecognizer: bool): (r: Action)
    ensures r.requested <==> hasRecognizer && !s.isListening
    ensures !r.requested ==> r.state == s
    ensures r.requested ==> r.state == State(false, "", "", None)
  {
    if hasRecognizer && !s.isListening then Action(s.(transcript := "", interim := "", error := None), true)
    else Action(s, false)
  }

  /** A granted start followed by the platform's `onstart` leaves a fresh,
      listening session whatever came before. */
  lemma StartThenStartedIsFresh(s: State)
    requires !s.isListening
    ensures OnStart(StartListening(s, true).state) == State(true, "", "", None)
  {
  }

  /** `stopListening()`: only asks the platform; no state changes. */
  function StopListening(s: State, hasRecognizer: bool): (r: Action)
    ensures r.state == s
    ensures r.requested <==> hasRecognizer && s.isListening
  {
    Action(s, hasRecognizer && s.isListening)
  }

  /** `clearTranscript()`. */
  function ClearTranscript(s: State): (r: State)
    ensures r.transcript == "" && r.interim == ""
    ensures r.isListening == s.isListening && r.error == s.error
  {
    s.(transcript := "", interim := "")
  }

  /** Everything that can happen to the hook. */
  datatype Event =
    | Started
    | Ended
    | Result(ev: ResultEvent)
    | Failed(code: string)
    | Start(hasRecognizer: bool)
    | Stop(hasRecognizer: bool)
    | Clear

  function Step(s: State, e: Event): State {
    match e
    case Started => OnStart(s)
    case Ended => OnEnd(s)
    case Result(ev) => OnResult(s, ev)
    case Failed(code) => OnError(s, code)
    case Start(h) => StartListening(s, h).state
    case Stop(h) => StopListening(s, h).state
    case Clear => ClearTranscript(s)
  }

  /** `isListening` is switched on by `onstart` and by nothing else, and
      switched off by `onend` or `onerror` and by nothing else. */
  lemma ListeningChangesOnlyOnPlatformEvents(s: State, e: Event)
    ensures !s.isListening && Step(s, e).isListening ==> e.Started?
    ensures s.isListening && !Step(s, e).isListening ==> e.Ended? || e.Failed?
  {
  }

  /** Results before `resultIndex` contribute nothing: two result lists that
      agree from `from` on gather the same text. */
  lemma {:induction false} GatherIgnoresPrefix(a: seq<RecognitionResult>, b: seq<RecognitionResult>, from: nat, wantFinal: bool)
    requires |a| == |b|
    requires forall i :: from <= i < |a| ==> a[i] == b[i]
    ensures Gather(a, from, wantFinal) == Gather(b, from, wantFinal)
    decreases |a| - from
  {
    if from < |a| {
      GatherIgnoresPrefix(a, b, from + 1, wantFinal);
    }
  }

  /** A window without final results gathers no final text. */
  lemma {:induction false} NoFinalGathersNothing(results: seq<RecognitionResult>, from: nat)
    requires forall i :: from <= i < |results| ==> !results[i].isFinal
    ensures Gather(results, from, true) == ""
    decreases |results| - from
  {
    if from < |results| {
      NoFinalGathersNothing(results, from + 1);
    }
  }

  /** A window of final results only gathers no interim text. */
  lemma {:induction false} AllFinalGathersNoInterim(results: seq<RecognitionResult>, from: nat)
    requires forall i :: from <= i < |results| ==> results[i].isFinal
    ensures Gather(results, from, false) == ""
    decreases |results| - from
  {
    if from < |results| {
      AllFinalGathersNoInterim(results, from + 1);
    }
  }

  /** An event with no final result in its window leaves the transcript
      as it was; one with only final results clears the interim text. */
  lemma ResultEventEdgeCases(s: State, ev: ResultEvent)
    ensures (forall i :: ev.resultIndex <= i < |ev.results| ==> !ev.results[i].isFinal)
            ==> OnResult(s, ev).transcript == s.transcript
    ensures (forall i :: ev.resultIndex <= i < |ev.results| ==> ev.results[i].isFinal)
            ==> OnResult(s, ev).interim == ""
  {
    if forall i :: ev.resultIndex <= i < |ev.results| ==> !ev.results[i].isFinal {
      NoFinalGathersNothing(ev.results, ev.resultIndex);
    }
    if forall i :: ev.resultIndex <= i < |ev.results| ==> ev.results[i].isFinal {
      AllFinalGathersNoInterim(ev.results, ev.resultIndex);
    }
  }

  /** The transcript only ever grows while no start or clear intervenes:
      every other event keeps the old transcript as a prefix. */
  lemma TranscriptGrowsOutsideStartAndClear(s: State, e: Event)
    requires !e.Start? && !e.Clear?
    ensures s.transcript <= Step(s, e).transcript
  {
  }
}

=== FILE: translation.dfy ===
/**
 The `useTranslation` hook (hooks/use-translation.ts): a result list, an
 in-flight flag and one error slot, driven by `translateText` and
 `clearTranslations`. A call to `translateText` is modelled as two steps, the
 synchronous start (`Begin`) and the settlement after `Promise.all`
 (`Settle`); overlapping batches are not modelled.
 */
module Translation {
  import opened Common
  import opened Batch
  import Languages

  datatype Translation = Translation(language: string, text: string, languageCode: string)

  datatype State = State(translations: seq<Translation>, isTranslating: bool, error: Option<string>)

  const Initial: State := State([], false, None)

  /** The entry one successful request produces. */
  function Entry(code: string, text: string): Translation {
    Translation(Languages.DisplayName(code), text, code)
  }

  /** What the hook's state is while the batch is in flight. */
  function Begin(s: State, text: string): (r: State)
    ensures IsBlank(text) ==> r == s
    ensures !IsBlank(text) ==> r.isTranslating && r.error == None && r.translations == s.translations
  {
    if IsBlank(text) then s else s.(isTranslating := true, error := None)
  }

  /** The `try`/`catch`/`finally` after `Promise.all` settles. */
  function Settle(s: State, outcome: Outcome<Translation>): (r: State)
    ensures !r.isTranslating
    ensures outcome.Resolved? ==> r.translations == outcome.values && r.error == s.error
    ensures outcome.Rejected? ==> r.translations == s.translations && r.error == Some(outcome.message)
  {
    match outcome
    case Resolved(values) => s.(translations := values, isTranslating := false)
    case Rejected(m) => s.(error := Some(m), isTranslating := false)
  }

  /** `translateText(text, targetLanguages)` from start to settlement. */
  function TranslateText(s: State, text: string, targets: seq<string>, oracle: Oracle, pick: nat): (r: State)
    // blank text: nothing at all changes
    ensures IsBlank(text) ==> r == s
    // otherwise the in-flight flag is down again afterwards
    ensures !IsBlank(text) ==> !r.isTranslating
    // success: one entry per requested code, in the caller's order
    ensures !IsBlank(text) && AllOk(targets, RepliesFor(oracle, text)) ==>
              && r.error == None
              && |r.translations| == |targets|
              && forall i :: 0 <= i < |targets| ==>
                   && r.translations[i].languageCode == targets[i]
                   && r.translations[i].language == Languages.DisplayName(targets[i])
                   && r.translations[i].text == oracle(Request(text, SourceLanguage, targets[i])).text
    // failure: the previous list survives and the error names a failing code
    ensures !IsBlank(text) && !AllOk(targets, RepliesFor(oracle, text)) ==>
              && r.translations == s.translations
              && exists i :: 0 <= i < |targets| && !oracle(Request(text, SourceLanguage, targets[i])).Ok?
                             && r.error == Some(FailureMessage(targets[i], oracle(Request(text, SourceLanguage, targets[i]))))
  {
    if IsBlank(text) then s
    else Settle(Begin(s, text), FanOut(targets, RepliesFor(oracle, text), Entry, pick))
  }

  /** `clearTranslations()`: the in-flight flag is not touched. */
  function Clear(s: State): (r: State)
    ensures r.translations == [] && r.error == None && r.isTranslating == s.isTranslating
  {
    s.(translations := [], error := None)
  }

  /** Non-blank text with no targets is not a no-op: `Promise.all([])`
      resolves, so the list is emptied and the error cleared. */
  lemma EmptyTargets(s: State, text: string, oracle: Oracle, pick: nat)
    requires !IsBlank(text)
    ensures TranslateText(s, text, [], oracle, pick) == State([], false, None)
  {
  }

  /** When the service returns a non-ok status for a code, that code's
      message is among the possible errors. */
  lemma NotOkNamesCode(s: State, text: string, targets: seq<string>, oracle: Oracle, k: nat)
    requires !IsBlank(text) && k < |targets|
    requires oracle(Request(text, SourceLanguage, targets[k])) == NotOk
    ensures exists pick: nat :: TranslateText(s, text, targets, oracle, pick).error == Some("Translation failed for " + targets[k])
  {
    AnyFailureCanWin(targets, RepliesFor(oracle, text), Entry, k);
    var pick: nat :| FanOut(targets, RepliesFor(oracle, text), Entry, pick)
                     == Rejected(FailureMessage(targets[k], RepliesFor(oracle, text)(targets[k])));
    assert TranslateText(s, text, targets, oracle, pick).error == Some("Translation failed for " + targets[k]);
  }

  /** The result does not depend on completion order when the batch
      succeeds: every `pick` gives the same state. */
  lemma SuccessIgnoresOrder(s: State, text: string, targets: seq<string>, oracle: Oracle, p1: nat, p2: nat)
    requires AllOk(targets, RepliesFor(oracle, text))
    ensures TranslateText(s, text, targets, oracle, p1) == TranslateText(s, text, targets, oracle, p2)
  {
  }
}
